=== FILE: README.md ===
# Hot Wheels collector site: check-in, search and badge slots

A Dafny model of the three server route handlers of the collector site that
hold logic of their own:

- **Daily check-in** (`app/api/checkin/route.ts`). The badge award rule
  (levels 1, 3, 7 and 12, then every 7th level from 19). The status read: the
  caller's check-ins, the count as both total and level, the check-ins of the
  last ten days, and the next badge level. The check-in write: a duplicate-day
  guard, level = prior count + 1, the force-mode scan for a free past date,
  the badge lookup, then the check-in insert followed by the grant insert.
- **Catalogue search** (`app/api/search/route.ts`). Lower-casing and trimming
  the query, the rarity marker chosen by priority (sth, then chase, then th),
  marker stripping, the word split, the name/series clauses, the 16-row page
  window and the page count.
- **Badge slots** (`app/api/checkin/user-badges/route.ts`). Listing the
  caller's grants, and equipping a badge in profile slot 1..5. Equipping is two
  ordered updates of `user_badges`: clear the slot, then assign it.

Modules:

- `Rows`: tables as sequences. It holds `Filter` for `.eq(...)`,
  `MaybeSingle` for `.maybeSingle()` and a stable `SortBy` for `.order(...)`.
- `Text`: the JavaScript string operations the handlers use (`trim`,
  `toLowerCase`, `includes`, `replace` with a string pattern).
- `Schema`: the row types, and a `Database` class whose fields are the tables.
- `Auth`: the `Authorization` header, read as a token that an identity
  oracle (a map from live tokens to users) resolves.
- `Checkin`, `Search` and `UserBadges`: one module per route.

The writes are methods that change the `Database` object. The reads, the
award rule and the search are functions.

Conventions:

- Calendar dates are day numbers. The clock (`today`, `now`) is a parameter.
- A rejected write is a parameter: `insertError`, `grantFails`, `clearFails`,
  `assignError`.
- JavaScript truthiness is written out. An empty header is "no header". A
  badge id of 0 awards nothing. `next_badge_level` reads a level of 0 as null.

Behaviour worth knowing:

- In force mode, when no date within 1000 days back is free, the check-in is
  written on the occupied candidate date.
- Equipping a badge writes `equipped_slot` on the caller's `user_badges` rows
  without looking for a grant of that badge. A badge the caller was never
  granted still empties the slot, and the reply is a success
  (`UngrantedBadgeEmptiesSlot`).
- The result of the clearing update is not looked at. When it is rejected,
  the assignment alone can put two of the caller's badges in one slot
  (`FailedClearLeavesTwoHolders`).
- Check-ins run one at a time grant each badge to a user at most once, as
  long as catalogue ids are unique (`NoBadgeGrantedTwice`). A grant is made
  only at the level the new check-in reaches, and levels only go up.
- `.maybeSingle()` reads several matching rows as no row. So the
  duplicate-day guard and the free-date probe are exact only while each user
  has at most one check-in per day (`ProbeIsExact`). A forced check-in on an
  occupied date can break that.

Marker stripping is a single left-to-right pass, so removing one marker can
join its neighbours into a new one: "tthh" is cleaned to "th"
(`OnePassLeavesMarker`).

Markers are found anywhere in the text, inside words too. For example, the
query "plymouth" asks for the TH rarity (`MarkerInsideName`).

## Model

| member | source | states |
|---|---|---|
| `Checkin.ShouldAwardBadge` | app/api/checkin/route.ts:7-15 | only positive levels award; from level 12 on, a level awards exactly when it is 12 plus a multiple of 7 |
| `Checkin.AwardRuleMatchesAwardLevels` | app/api/checkin/route.ts:7-15 | a level awards a badge exactly when it is one of 1, 3, 7, 12, 19, 26, ... (the k-th award level, for some k) |
| `Checkin.NoAwardBetween` | app/api/checkin/route.ts:7-15 | no level strictly between two consecutive award levels awards a badge |
| `Checkin.AwardRuleExamples` | app/api/checkin/route.ts:8-14 | 1, 3, 7, 12, 19, 26 and 33 award; 2, 4-6, 8, 13, 18 and 20 do not |
| `Auth.Authenticate` | app/api/checkin/route.ts:89-101 | an absent or empty header, or a token with no user, authenticates nobody; a non-empty header whose token has a user authenticates exactly that user, and nobody else is ever returned |
| `Auth.BearerHeaderResolves` | app/api/checkin/route.ts:95-97 | a header `Bearer <token>` resolves to the user of exactly that token, whatever the token holds |
| `Text.RemoveFirst` | app/api/checkin/route.ts:95 | `replace` with a string pattern leaves a text without the pattern as it is, and otherwise cuts out the first occurrence, keeping what lies before and after it |
| `Text.Trim` | app/api/search/route.ts:10 | the trimmed text is the slice of the input between a blank prefix and a blank suffix, starts and ends with non-space, and is empty exactly for blank input |
| `Text.Contains` | app/api/search/route.ts:23-25 | `includes` holds exactly when the pattern occurs at some index |
| `Text.ToLower` | app/api/search/route.ts:19 | lower-casing keeps the length, works character by character and keeps blankness |
| `Text.IndexFrom` | app/api/search/route.ts:23-25 | the index found is the first occurrence at or after the start; none means no occurrence |
| `Rows.Filter` | app/api/checkin/route.ts:33-36 | a selection is never longer than the table |
| `Rows.FilterMembers` | app/api/checkin/route.ts:33-36 | a selection by user holds exactly the table's matching rows |
| `Rows.MaybeSingle` | app/api/checkin/route.ts:124-129 | a `.maybeSingle()` read yields a row exactly when one row matches, and then it is that row |
| `Rows.SortBy` | app/api/checkin/route.ts:33-37 | an ordered read returns exactly the selected rows (same multiset), in key order |
| `Checkin.GetStatus` | app/api/checkin/route.ts:17-86 | 401 exactly when authentication fails; total = level = the caller's row count; all check-ins are the caller's rows newest first; recent check-ins are exactly those dated at or after today - 10; grants, selections and the catalogue are the matching rows in their orders; the next level is read from the ascending catalogue |
| `Checkin.FindAbove` | app/api/checkin/route.ts:84 | the badge found lies above the level; none means no badge does |
| `Checkin.FindAboveIsLeast` | app/api/checkin/route.ts:84 | on an ascending catalogue the badge found has the least level above the current one |
| `Checkin.NextBadgeLevel` | app/api/checkin/route.ts:84 | a next level lies above the current level and is a catalogue level; for a level of 0 or more, none means no catalogue level lies above |
| `Checkin.NextBadgeLevelIsLeastAbove` | app/api/checkin/route.ts:71-84 | the next badge level exists exactly when some catalogue level exceeds the current level, and then it is the least such level |
| `Checkin.Probe` | app/api/checkin/route.ts:124-129 | the date probe (also at lines 148-153 and 163-168) finds a row exactly when the caller has one row on that date, and the row it finds is the caller's, on that date |
| `Checkin.ProbeIsExact` | app/api/checkin/route.ts:124-131 | with one row per user and day, a date reads as free exactly when the caller has no check-in on it |
| `Checkin.BackfillDate` | app/api/checkin/route.ts:139-174 | the scanning loop returns the candidate today - count when free, else the nearest free date up to 1000 days back, else the occupied candidate |
| `Checkin.BackfillDateIsUnique` | app/api/checkin/route.ts:141-174 | the force-mode description determines a single date |
| `Checkin.BackfillFound` | app/api/checkin/route.ts:157-174 | the first free date after an occupied candidate, within 1000 days back, is the force-mode date |
| `Checkin.BackfillExhausted` | app/api/checkin/route.ts:141-174 | when the candidate and every date up to 1000 days back are taken, the force-mode date is the candidate |
| `Checkin.BackfillNotAfterCandidate` | app/api/checkin/route.ts:141-174 | the forced date is never later than the candidate, and a date other than the candidate is free |
| `Checkin.AwardedBadge` | app/api/checkin/route.ts:179-200 | a badge is attached only when the rule fires at the new level and the catalogue holds a badge requiring exactly that level |
| `Checkin.AwardedBadgeFound` | app/api/checkin/route.ts:183-200 | with unique catalogue levels, an award level finds a badge exactly when the catalogue has one for that level |
| `Checkin.Commit` | app/api/checkin/route.ts:202-234 | a failed check-in insert returns 500 and writes nothing; otherwise the record is appended, and the grant is appended only for a truthy badge id and a grant insert that succeeds |
| `Checkin.PostCheckin` | app/api/checkin/route.ts:88-244 | 401 exactly when authentication fails; 400 with the existing row exactly when not forced and today is taken; no write unless 201; level = total = prior count + 1; the date is today, or the force-mode date; the badge, badge id, `badge_awarded` and the grant row follow the award rule; every level stays its user's running count; every grant stays earned at a level its user has reached, no user gets two grants at one level, and every grant stays a catalogue badge requiring the level it was earned at; one row per user and day is kept by an ordinary check-in and by a forced one that lands on a free date (a forced one on an occupied date may break it) |
| `Checkin.CommitKeepsLedgerInvariants` | app/api/checkin/route.ts:203-212 | appending a record at level prior count + 1 makes the count equal that level and keeps every level a count; on a free date it keeps one row per user and day |
| `Checkin.CommitKeepsGrantInvariants` | app/api/checkin/route.ts:219-234 | a check-in at level prior count + 1 with, at most, the grant of the badge the catalogue awards for that level keeps every grant earned at a reached level, keeps one grant per user and level, and keeps every grant a catalogue badge of its level |
| `Checkin.NoBadgeGrantedTwice` | app/api/checkin/route.ts:219-228 | with unique catalogue ids, one grant per user and level and grants matching the catalogue mean no user holds two grants of the same badge |
| `Checkin.AppendNextLevel` | app/api/checkin/route.ts:113-118 | a record at the user's prior count + 1 keeps each record's level equal to its user's running count |
| `Checkin.AppendOnFreeDay` | app/api/checkin/route.ts:120-137 | a record on a date its user has free keeps one row per user and day |
| `Checkin.AppendOtherUser` | app/api/checkin/route.ts:113-116 | another user's check-in leaves a user's count unchanged |
| `Checkin.ForcedOnFreeCandidate` | app/api/checkin/route.ts:141-153 | a forced check-in whose candidate date is free is created on today - count at level count + 1, with the badge the catalogue awards for that level, and appends exactly that row |
| `Checkin.ForcedStreakFromEmpty` | app/api/checkin/route.ts:141-174 | three forced check-ins on an empty ledger land on today, yesterday and the day before, at levels 1, 2 and 3 |
| `Checkin.SameDayTwice` | app/api/checkin/route.ts:120-137 | a second ordinary check-in on the same day is refused with the first one, and the count stays 1 |
| `Search.DetectRarity` | app/api/search/route.ts:21-25 | "sth" gives STH; otherwise "chase" gives CHASE; otherwise "th" gives TH; no rarity exactly when neither "th" nor "chase" occurs |
| `Search.MarkerInsideName` | app/api/search/route.ts:23-25 | a name with "th" inside a word ("plymouth") asks for the TH rarity |
| `Search.FrontMarker` | app/api/search/route.ts:28 | the alternative chosen at a position is one of sth, chase, th, and fits in the text |
| `Search.FrontMarkerPriority` | app/api/search/route.ts:28 | the alternatives are tried in the order sth, chase, th; the one chosen matches there, ignoring case; none exactly when no alternative matches |
| `Search.StripMarkers` | app/api/search/route.ts:28-29 | stripping never lengthens the text and only deletes characters: what remains is a subsequence of the text, in its order |
| `Search.StripKeepsUnmatched` | app/api/search/route.ts:28 | characters before the first position where an alternative matches are kept unchanged |
| `Search.StripRemovesFirstMatch` | app/api/search/route.ts:28 | at the least index where an alternative matches, the text before it is kept, the alternative matched there is removed, and stripping resumes after it |
| `Search.StripWithoutMatch` | app/api/search/route.ts:28 | a text where no alternative matches at any position comes through unchanged |
| `Search.OnePassLeavesMarker` | app/api/search/route.ts:28-29 | stripping "tthh" gives "th": one pass can leave a marker in the cleaned text |
| `Search.StripWithoutMarkers` | app/api/search/route.ts:22-29 | lower-case text in which no marker is detected comes through stripping unchanged |
| `Search.Cleaned` | app/api/search/route.ts:28-30 | the cleaned text is never longer than the text and has no surrounding white space |
| `Search.Words` | app/api/search/route.ts:32 | no word is empty and no word contains white space |
| `Search.WordsSplitAtSpace` | app/api/search/route.ts:32 | words break exactly at white space: a space splits the text into the words before it followed by the words after it |
| `Search.SingleWord` | app/api/search/route.ts:32 | a non-empty text without white space is one word, itself |
| `Search.WordsKeepEveryCharacter` | app/api/search/route.ts:32 | the words, run together, are exactly the text's non-space characters in order |
| `Search.NoWordsIffBlank` | app/api/search/route.ts:32 | there are no words exactly when the text is blank |
| `Search.OneWordIsWhole` | app/api/search/route.ts:32-53 | a trimmed non-empty text with fewer than two words is a single word, itself |
| `Search.TextClauses` | app/api/search/route.ts:46-55 | no clause for empty text; for two or more words, the whole text and the first two words on the name, and the first two words on the series; otherwise the whole text on name and series; no pattern is empty |
| `Search.PageWindows` | app/api/search/route.ts:38 | a page window holds exactly 16 positions and the next page starts right after it |
| `Search.RowOnOnePage` | app/api/search/route.ts:38 | every row index lies in the window of exactly one page, page i / 16 + 1 |
| `Search.Normalize` | app/api/search/route.ts:19 | the normalized query is the lower-cased input between blank ends: lowered, trimmed, never longer, and empty exactly for blank input |
| `Search.BuildQuery` | app/api/search/route.ts:10-55 | no query exactly for blank input; the window starts at (page - 1) * 16 and spans 16 rows; the rarity is the one detected in the normalized text (a filter exactly when "th" or "chase" occurs); the clauses are those of the cleaned normalized text, present exactly when it is not empty |
| `Search.NormalizedNotEmpty` | app/api/search/route.ts:10-19 | a query that passes the blank check is not empty after lower-casing and trimming |
| `Search.PageOf` | app/api/search/route.ts:7 | an absent page parameter reads as page 1; a numeric one is used as given |
| `Search.TotalPages` | app/api/search/route.ts:64 | the page count covers the count, no page is wholly empty, and no rows means no pages |
| `Search.Get` | app/api/search/route.ts:4-72 | the page is echoed; blank input and a query error both give the empty shape; otherwise the rows and count (null as 0) come back with a page count that covers them |
| `UserBadges.Accepts` | app/api/checkin/user-badges/route.ts:37-39 | a request passes exactly when the badge id is present and non-zero and the slot is one of 1..5 |
| `UserBadges.ClearSlot` | app/api/checkin/user-badges/route.ts:41-45 | after the clearing update none of the caller's rows holds the slot; only the caller's rows in that slot change, and only in the slot column |
| `UserBadges.AssignSlot` | app/api/checkin/user-badges/route.ts:47-51 | after the assigning update every caller row for the badge holds the slot; no other row and no other column changes |
| `UserBadges.Equip` | app/api/checkin/user-badges/route.ts:41-51 | afterwards only the chosen badge's rows of the caller hold the slot; those rows hold it; a previous holder is emptied; other users' rows, and the caller's rows that are neither in the slot nor the chosen badge, are unchanged; no column but the slot changes |
| `UserBadges.EquipKeepsOneBadgePerSlot` | app/api/checkin/user-badges/route.ts:41-51 | equipping keeps, for every user, one badge per slot |
| `UserBadges.UngrantedBadgeEmptiesSlot` | app/api/checkin/user-badges/route.ts:41-54 | equipping a badge the caller has no row for leaves the slot empty |
| `UserBadges.FailedClearLeavesTwoHolders` | app/api/checkin/user-badges/route.ts:41-51 | with badge 1 in slot 2, a rejected clear followed by assigning badge 7 to slot 2 leaves two badges in that slot |
| `UserBadges.EquipKeepsSlotsInRange` | app/api/checkin/user-badges/route.ts:37-51 | with an accepted slot, clearing and equipping keep every equipped slot within 1..5 |
| `UserBadges.PostEquip` | app/api/checkin/user-badges/route.ts:27-55 | 401 exactly when authentication fails, 400 exactly for a rejected request, no write in either case; a failed clear is ignored; a failed assignment returns 500 after the clear; success after a clear that went through leaves the table as `Equip` describes and keeps one badge per slot; a clear that went through keeps slots in 1..5; every outcome keeps the check-in route's grant invariants (grants earned at reached levels, one grant per user and level, grants matching the catalogue) |
| `UserBadges.SlotChangesKeepGrantInvariants` | app/api/checkin/user-badges/route.ts:41-51 | slot updates change no grant's user, badge or level, so the grant invariants of the check-in route hold on |
| `UserBadges.GetBadges` | app/api/checkin/user-badges/route.ts:6-25 | 401 exactly when authentication fails, 500 exactly on a read error; otherwise exactly the caller's grants (same multiset), newest `created_at` first |

## Left out

- The hosted database and identity service are not modelled as such. Tables are sequences, and the token lookup is a map.
- `ilike` matching and the `.or(...)` filter syntax are left out. The model stops at the clauses: which column, which pattern.
- The joined columns (`badge:badges(*)`, `badges(name, image_url, level_required)`) are left out. Rows carry only their own columns.
- Read errors on the check-in routes are left out. The source does not look at them: a failed status read replies with `all_checkins` null, zero totals and empty lists, and in POST a failed count reads as zero and a failed probe as a free date.
- Wall-clock dates, UTC truncation and `setDate` rollover become day numbers. The recent-day filter compares day numbers.
- Store-generated ids and timestamps are left out. A new grant's `earned_at` and `created_at` are the `now` parameter.
- The race between concurrent check-in requests is left out. The model is sequential.
- Logging (`console.log`, `console.error`) is left out.
- Non-integer `page` values are left out. The `page` parameter is an integer or absent; `parseInt` yielding `NaN` is not modelled.
- JSON field values other than integers, for `badge_id` and `slot`, are left out.
- Text.ToLower: lower-casing covers Latin A-Z and the Cyrillic capitals U+0400-U+042F and U+0490. Every other character is kept unchanged, including capitals JavaScript lower-cases, such as Latin À-Þ and Cyrillic Қ (U+049A) or Ә (U+04D8).
- A character outside the Basic Multilingual Plane is one `char` here but two UTF-16 code units in JavaScript. Lengths of such text are not modelled as JavaScript counts them.
- The UI pages, components and layouts, and `lib/banners.ts`, are not part of this model.

=== FILE: auth.dfy ===
/**
  Caller identification shared by the route handlers: the `Authorization`
  header is turned into a token, and the identity provider (an oracle here,
  a map from live tokens to users) resolves it.
 */
module Auth {
  import opened Rows
  import opened Text
  import opened Schema

  const BearerPrefix: string := "Bearer "

  /** `authHeader.replace('Bearer ', '')`: the first "Bearer " is removed, wherever it stands. */
  function TokenOf(header: string): string
  {
    RemoveFirst(header, BearerPrefix)
  }

  /**
    The caller, or none when the header is absent or empty (both falsy) or the
    identity provider resolves no user for its token.
   */
  function Authenticate(header: Option<string>, sessions: map<string, UserId>): (user: Option<UserId>)
    ensures header.None? || header == Some("") ==> user.None?
    ensures user.Some? ==> header.Some? && TokenOf(header.value) in sessions
    ensures user.Some? ==> user.value == sessions[TokenOf(header.value)]
    ensures header.Some? && header.value != "" && TokenOf(header.value) in sessions
            ==> user == Some(sessions[TokenOf(header.value)])
  {
    if header.None? || header.value == "" then None
    else if TokenOf(header.value) in sessions then Some(sessions[TokenOf(header.value)])
    else None
  }

  /** A well-formed `Bearer <token>` header resolves to the token's user, whatever the token holds. */
  lemma BearerHeaderResolves(token: string, sessions: map<string, UserId>)
    ensures Authenticate(Some(BearerPrefix + token), sessions)
         == (if token in sessions then Some(sessions[token]) else None)
  {
    RemoveFirstOfPrefix(BearerPrefix, token);
  }
}

=== FILE: checkin.dfy ===
/**
  The daily check-in route: the badge award rule, the status read (GET) and
  the check-in write (POST) over the per-user ledger `daily_checkins`.
 */
module Checkin {
  import opened Rows
  import opened Schema
  import opened Auth

  /** GET lists as recent the check-ins dated at most this many days ago. */
  const RecentDays := 10

  /** The force-mode scan for a free date looks at most this many days back. */
  const MaxDaysBack := 1000

  // ---------------------------------------------------------------------------
  // Award rule

  /** Levels 1, 3, 7 and 12, then every 7th level from 19 on. */
  predicate ShouldAwardBadge(level: int)
    ensures ShouldAwardBadge(level) ==> level >= 1
    ensures level >= 12 ==> (ShouldAwardBadge(level) <==> (level - 12) % 7 == 0)
  {
    level in {1, 3, 7, 12} || (level >= 19 && (level - 12) % 7 == 0)
  }

  /** The k-th level that awards a badge, counting from 0: 1, 3, 7, 12, 19, 26, ... */
  function AwardLevel(k: nat): (level: int)
    ensures level >= 1
  {
    if k == 0 then 1 else if k == 1 then 3 else if k == 2 then 7 else 12 + 7 * (k - 3)
  }

  /** The award levels rise strictly with their index. */
  lemma AwardLevelsIncrease(k: nat)
    ensures AwardLevel(k) < AwardLevel(k + 1)
  {
  }

  /** The rule awards at a level exactly when the level is one of the enumerated award levels. */
  lemma {:induction false} AwardRuleMatchesAwardLevels(level: int)
    ensures ShouldAwardBadge(level) <==> exists k: nat :: AwardLevel(k) == level
  {
    if ShouldAwardBadge(level) {
      if level >= 19 && (level - 12) % 7 == 0 {
        var k: nat := (level - 12) / 7 + 3;
        assert AwardLevel(k) == level;
      } else if level == 1 {
        assert AwardLevel(0) == level;
      } else if level == 3 {
        assert AwardLevel(1) == level;
      } else if level == 7 {
        assert AwardLevel(2) == level;
      } else {
        assert AwardLevel(3) == level;
      }
    } else {
      forall k: nat ensures AwardLevel(k) != level {
        if k >= 4 {
          assert AwardLevel(k) - 12 == 7 * (k - 3);
          assert (7 * (k - 3)) % 7 == 0;
        }
      }
    }
  }

  /** No level strictly between two consecutive award levels awards a badge. */
  lemma {:induction false} NoAwardBetween(k: nat, level: int)
    requires AwardLevel(k) < level < AwardLevel(k + 1)
    ensures !ShouldAwardBadge(level)
  {
    if ShouldAwardBadge(level) {
      AwardRuleMatchesAwardLevels(level);
      var j: nat :| AwardLevel(j) == level;
      if j <= k {
        AwardLevelsMonotone(j, k);
      } else {
        AwardLevelsMonotone(k + 1, j);
      }
    }
  }

  lemma {:induction false} AwardLevelsMonotone(i: nat, j: nat)
    requires i <= j
    ensures AwardLevel(i) <= AwardLevel(j)
    decreases j - i
  {
    if i < j {
      AwardLevelsIncrease(i);
      AwardLevelsMonotone(i + 1, j);
    }
  }

  /** Sample award and non-award levels. */
  lemma AwardRuleExamples()
    ensures ShouldAwardBadge(1) && ShouldAwardBadge(3) && ShouldAwardBadge(7) && ShouldAwardBadge(12)
    ensures ShouldAwardBadge(19) && ShouldAwardBadge(26) && ShouldAwardBadge(33)
    ensures !ShouldAwardBadge(2) && !ShouldAwardBadge(4) && !ShouldAwardBadge(5) && !ShouldAwardBadge(6)
    ensures !ShouldAwardBadge(8) && !ShouldAwardBadge(13) && !ShouldAwardBadge(18) && !ShouldAwardBadge(20)
  {
  }

  // ---------------------------------------------------------------------------
  // Ledger reads

  /** The user's check-ins, in table order (`.eq('user_id', user)`). */
  function RowsOf(ledger: seq<CheckinRecord>, user: UserId): seq<CheckinRecord>
  {
    Filter(ledger, CheckinOf(user))
  }

  /** The `maybeSingle` read of the user's check-in on `date`. */
  function Probe(ledger: seq<CheckinRecord>, user: UserId, date: int): (r: Option<CheckinRecord>)
    ensures r.Some? <==> |Filter(ledger, CheckinOn(user, date))| == 1
    ensures r.Some? ==> r.value in ledger && r.value.userId == user && r.value.checkinDate == date
  {
    FilterMembers(ledger, CheckinOn(user, date));
    MaybeSingle(Filter(ledger, CheckinOn(user, date)))
  }

  /** The probe of `date` finds no check-in. */
  predicate IsFree(ledger: seq<CheckinRecord>, user: UserId, date: int)
  {
    Probe(ledger, user, date).None?
  }

  /** The date `daysBack` days before `today` is free. */
  predicate FreeDaysBack(ledger: seq<CheckinRecord>, user: UserId, today: int, daysBack: int)
  {
    IsFree(ledger, user, today - daysBack)
  }

  /** No user has two check-ins on one date (the uniqueness the ledger is meant to keep). */
  ghost predicate OneRowPerDay(ledger: seq<CheckinRecord>)
  {
    forall i, j :: 0 <= i < j < |ledger| && ledger[i].userId == ledger[j].userId
      ==> ledger[i].checkinDate != ledger[j].checkinDate
  }

  /** Each check-in's level is the number of its user's check-ins up to and including it. */
  ghost predicate LevelsAreCounts(ledger: seq<CheckinRecord>)
  {
    forall i :: 0 <= i < |ledger| ==> ledger[i].level == |RowsOf(ledger[..i + 1], ledger[i].userId)|
  }

  /** Every grant was earned at a level its user has reached: 1 up to the user's check-in count. */
  ghost predicate GrantsEarned(ledger: seq<CheckinRecord>, grants: seq<UserBadge>)
  {
    forall i :: 0 <= i < |grants| ==> 1 <= grants[i].levelEarned <= |RowsOf(ledger, grants[i].userId)|
  }

  /** No user has two grants earned at the same level. */
  ghost predicate OneGrantPerLevel(grants: seq<UserBadge>)
  {
    forall i, j :: 0 <= i < j < |grants| && grants[i].userId == grants[j].userId
      ==> grants[i].levelEarned != grants[j].levelEarned
  }

  /** The grant is of a catalogue badge that requires exactly the level it was earned at. */
  ghost predicate ListedAtLevel(catalog: seq<Badge>, grant: UserBadge)
  {
    exists k :: 0 <= k < |catalog| && catalog[k].id == grant.badgeId && catalog[k].levelRequired == grant.levelEarned
  }

  /** Every grant is of a catalogue badge that requires exactly the level it was earned at. */
  ghost predicate GrantsMatchCatalogue(grants: seq<UserBadge>, catalog: seq<Badge>)
  {
    forall i :: 0 <= i < |grants| ==> ListedAtLevel(catalog, grants[i])
  }

  /** No two catalogue badges share an id. */
  ghost predicate UniqueIds(catalog: seq<Badge>)
  {
    forall i, j :: 0 <= i < j < |catalog| ==> catalog[i].id != catalog[j].id
  }

  /** With unique badge ids, the grant invariants mean no user is granted one badge twice. */
  lemma NoBadgeGrantedTwice(grants: seq<UserBadge>, catalog: seq<Badge>)
    requires UniqueIds(catalog)
    requires OneGrantPerLevel(grants) && GrantsMatchCatalogue(grants, catalog)
    ensures forall i, j :: 0 <= i < j < |grants| && grants[i].userId == grants[j].userId
              ==> grants[i].badgeId != grants[j].badgeId
  {
    forall i, j | 0 <= i < j < |grants| && grants[i].userId == grants[j].userId
      ensures grants[i].badgeId != grants[j].badgeId
    {
      assert ListedAtLevel(catalog, grants[i]) && ListedAtLevel(catalog, grants[j]);
      var ki :| 0 <= ki < |catalog| && catalog[ki].id == grants[i].badgeId && catalog[ki].levelRequired == grants[i].levelEarned;
      var kj :| 0 <= kj < |catalog| && catalog[kj].id == grants[j].badgeId && catalog[kj].levelRequired == grants[j].levelEarned;
      // Different levels mean different catalogue badges, hence different ids.
      assert ki != kj;
      if ki < kj {
        assert catalog[ki].id != catalog[kj].id;
      } else {
        assert catalog[kj].id != catalog[ki].id;
      }
    }
  }

  /** Appending a check-in never lowers any user's count. */
  lemma CountsNeverDrop(ledger: seq<CheckinRecord>, rec: CheckinRecord, user: UserId)
    ensures |RowsOf(ledger + [rec], user)| >= |RowsOf(ledger, user)|
  {
    FilterAppend(ledger, rec, CheckinOf(user));
  }

  /**
    A committed check-in at the next level, with the grant (if any) of the
    badge the catalogue awards for that level, keeps the grant invariants.
   */
  lemma CommitKeepsGrantInvariants(ledger: seq<CheckinRecord>, grants: seq<UserBadge>, catalog: seq<Badge>,
                                   rec: CheckinRecord, badge: Option<Badge>, granted: bool, now: int)
    requires rec.level == |RowsOf(ledger, rec.userId)| + 1
    requires badge == AwardedBadge(catalog, rec.level)
    requires granted ==> badge.Some?
    ensures var after := grants + (if granted then [UserBadge(rec.userId, badge.value.id, rec.level, None, now, now)] else []);
      && (GrantsEarned(ledger, grants) ==> GrantsEarned(ledger + [rec], after))
      && (GrantsEarned(ledger, grants) && OneGrantPerLevel(grants) ==> OneGrantPerLevel(after))
      && (GrantsMatchCatalogue(grants, catalog) ==> GrantsMatchCatalogue(after, catalog))
  {
    var added := if granted then [UserBadge(rec.userId, badge.value.id, rec.level, None, now, now)] else [];
    var after := grants + added;
    FilterAppend(ledger, rec, CheckinOf(rec.userId));
    if GrantsEarned(ledger, grants) {
      forall i | 0 <= i < |after| ensures 1 <= after[i].levelEarned <= |RowsOf(ledger + [rec], after[i].userId)| {
        if i < |grants| {
          assert after[i] == grants[i];
          CountsNeverDrop(ledger, rec, grants[i].userId);
        } else {
          assert after[i] == added[i - |grants|];
        }
      }
      if OneGrantPerLevel(grants) {
        forall i, j | 0 <= i < j < |after| && after[i].userId == after[j].userId
          ensures after[i].levelEarned != after[j].levelEarned
        {
          if j >= |grants| {
            assert i < |grants| && after[i] == grants[i] && after[j] == added[j - |grants|];
          } else {
            assert after[i] == grants[i] && after[j] == grants[j];
          }
        }
      }
    }
    if GrantsMatchCatalogue(grants, catalog) {
      forall i | 0 <= i < |after| ensures ListedAtLevel(catalog, after[i]) {
        if i < |grants| {
          assert after[i] == grants[i];
        } else {
          assert after[i] == added[i - |grants|];
          var k :| 0 <= k < |catalog| && catalog[k] == badge.value;
          assert catalog[k].id == after[i].badgeId && catalog[k].levelRequired == after[i].levelEarned;
        }
      }
    }
  }

  /** With one row per day, a date reads as free exactly when the user has no check-in on it. */
  lemma ProbeIsExact(ledger: seq<CheckinRecord>, user: UserId, date: int)
    requires OneRowPerDay(ledger)
    ensures IsFree(ledger, user, date)
        <==> forall k :: 0 <= k < |ledger| ==> !CheckinOn(user, date)(ledger[k])
  {
    var p := CheckinOn(user, date);
    FilterAtMostOne(ledger, p);
    FilterEmptyIffNone(ledger, p);
  }

  /** Appending a check-in on a free date keeps one row per day. */
  lemma AppendOnFreeDay(ledger: seq<CheckinRecord>, rec: CheckinRecord)
    requires OneRowPerDay(ledger)
    requires IsFree(ledger, rec.userId, rec.checkinDate)
    ensures OneRowPerDay(ledger + [rec])
  {
    ProbeIsExact(ledger, rec.userId, rec.checkinDate);
    var s := ledger + [rec];
    forall i, j | 0 <= i < j < |s| && s[i].userId == s[j].userId
      ensures s[i].checkinDate != s[j].checkinDate
    {
      if j == |ledger| {
        assert !CheckinOn(rec.userId, rec.checkinDate)(ledger[i]);
      }
    }
  }

  /** Appending a check-in whose level is its user's prior count + 1 keeps every level a count. */
  lemma AppendNextLevel(ledger: seq<CheckinRecord>, rec: CheckinRecord)
    requires LevelsAreCounts(ledger)
    requires rec.level == |RowsOf(ledger, rec.userId)| + 1
    ensures LevelsAreCounts(ledger + [rec])
    ensures |RowsOf(ledger + [rec], rec.userId)| == rec.level
  {
    var s := ledger + [rec];
    FilterAppend(ledger, rec, CheckinOf(rec.userId));
    forall i | 0 <= i < |s| ensures s[i].level == |RowsOf(s[..i + 1], s[i].userId)| {
      if i < |ledger| {
        assert s[..i + 1] == ledger[..i + 1];
        assert s[i] == ledger[i];
        assert ledger[i].level == |RowsOf(ledger[..i + 1], ledger[i].userId)|;
      } else {
        assert s[..i + 1] == s;
      }
    }
  }

  /** Appending a check-in of another user leaves the user's count as it was. */
  lemma AppendOtherUser(ledger: seq<CheckinRecord>, rec: CheckinRecord, user: UserId)
    requires rec.userId != user
    ensures RowsOf(ledger + [rec], user) == RowsOf(ledger, user)
  {
    FilterAppend(ledger, rec, CheckinOf(user));
  }

  // ---------------------------------------------------------------------------
  // Force mode: choosing a past date

  /**
    The date a forced check-in is written on, given the user's prior count:
    the candidate `today - count` when free; otherwise the free date nearest
    the candidate among `count + 1`, ..., `MaxDaysBack` days back; and when
    none of those is free either, the occupied candidate.
   */
  ghost predicate IsBackfillDate(ledger: seq<CheckinRecord>, user: UserId, today: int, count: nat, date: int)
  {
    if FreeDaysBack(ledger, user, today, count) then date == today - count
    else if exists d :: count < d <= MaxDaysBack && FreeDaysBack(ledger, user, today, d) then
      && count < today - date <= MaxDaysBack
      && FreeDaysBack(ledger, user, today, today - date)
      && forall d :: count < d < today - date ==> !FreeDaysBack(ledger, user, today, d)
    else date == today - count
  }

  /** The force-mode description names one date only. */
  lemma {:induction false} BackfillDateIsUnique(ledger: seq<CheckinRecord>, user: UserId, today: int, count: nat, d1: int, d2: int)
    requires IsBackfillDate(ledger, user, today, count, d1)
    requires IsBackfillDate(ledger, user, today, count, d2)
    ensures d1 == d2
  {
  }

  /** The forced date is never later than the candidate `today - count`. */
  lemma BackfillNotAfterCandidate(ledger: seq<CheckinRecord>, user: UserId, today: int, count: nat, date: int)
    requires IsBackfillDate(ledger, user, today, count, date)
    ensures date <= today - count
    ensures date != today - count ==> FreeDaysBack(ledger, user, today, today - date)
  {
  }

  /**
    The probing loop of the force mode: starts at the candidate date and, when
    it is taken, steps one day further back at a time until a free date turns
    up or `MaxDaysBack` is reached.
   */
  method BackfillDate(ledger: seq<CheckinRecord>, user: UserId, today: int, count: nat) returns (date: int)
    ensures IsBackfillDate(ledger, user, today, count, date)
  {
    date := today - count;
    var existingOnDate := Probe(ledger, user, date);
    var daysBack := count;
    while existingOnDate.Some? && daysBack < MaxDaysBack
      invariant count <= daysBack
      invariant existingOnDate.Some? ==> daysBack <= MaxDaysBack || daysBack == count
      invariant date == today - count
      invariant existingOnDate.Some? <==> !FreeDaysBack(ledger, user, today, count)
      invariant forall d :: count < d <= daysBack ==> !FreeDaysBack(ledger, user, today, d)
      decreases MaxDaysBack - daysBack
    {
      daysBack := daysBack + 1;
      var testDate := today - daysBack;
      var testExisting := Probe(ledger, user, testDate);
      if testExisting.None? {
        date := testDate;
        BackfillFound(ledger, user, today, count, daysBack);
        return;
      }
      assert !FreeDaysBack(ledger, user, today, daysBack);
    }
    if existingOnDate.Some? {
      BackfillExhausted(ledger, user, today, count);
    }
  }

  /** The first free date after an occupied candidate is the forced date. */
  lemma BackfillFound(ledger: seq<CheckinRecord>, user: UserId, today: int, count: nat, daysBack: int)
    requires !FreeDaysBack(ledger, user, today, count)
    requires count < daysBack <= MaxDaysBack && FreeDaysBack(ledger, user, today, daysBack)
    requires forall d :: count < d < daysBack ==> !FreeDaysBack(ledger, user, today, d)
    ensures IsBackfillDate(ledger, user, today, count, today - daysBack)
  {
    assert today - (today - daysBack) == daysBack;
  }

  /** With the candidate and every date up to `MaxDaysBack` days back taken, the candidate stays. */
  lemma BackfillExhausted(ledger: seq<CheckinRecord>, user: UserId, today: int, count: nat)
    requires forall d :: count < d <= MaxDaysBack ==> !FreeDaysBack(ledger, user, today, d)
    ensures IsBackfillDate(ledger, user, today, count, today - count)
  {
  }

  // ---------------------------------------------------------------------------
  // Badge lookup

  /** No two catalogue badges require the same level. */
  ghost predicate UniqueLevels(catalog: seq<Badge>)
  {
    forall i, j :: 0 <= i < j < |catalog| ==> catalog[i].levelRequired != catalog[j].levelRequired
  }

  /** The badge a check-in reaching `level` carries: the rule must fire and the catalogue must hold it. */
  function AwardedBadge(catalog: seq<Badge>, level: int): (b: Option<Badge>)
    ensures b.Some? ==> ShouldAwardBadge(level) && b.value in catalog && b.value.levelRequired == level
  {
    if ShouldAwardBadge(level) then
      FilterMembers(catalog, RequiringLevel(level));
      MaybeSingle(Filter(catalog, RequiringLevel(level)))
    else None
  }

  /** With unique levels, an award level finds the catalogue badge for it, and only it. */
  lemma AwardedBadgeFound(catalog: seq<Badge>, level: int)
    requires UniqueLevels(catalog)
    requires ShouldAwardBadge(level)
    ensures AwardedBadge(catalog, level).Some?
        <==> exists k :: 0 <= k < |catalog| && catalog[k].levelRequired == level
  {
    var p := RequiringLevel(level);
    FilterAtMostOne(catalog, p);
    FilterEmptyIffNone(catalog, p);
    if exists k :: 0 <= k < |catalog| && catalog[k].levelRequired == level {
      var k :| 0 <= k < |catalog| && catalog[k].levelRequired == level;
      assert p(catalog[k]);
    }
  }

  // ---------------------------------------------------------------------------
  // GET: status

  /** `badges.find(b => b.level_required > level)`. */
  function FindAbove(badges: seq<Badge>, level: int): (r: Option<Badge>)
    ensures r.Some? ==> r.value in badges && r.value.levelRequired > level
    ensures r.None? ==> forall k :: 0 <= k < |badges| ==> badges[k].levelRequired <= level
  {
    if badges == [] then None
    else if badges[0].levelRequired > level then Some(badges[0])
    else FindAbove(badges[1..], level)
  }

  /** On a catalogue in ascending level order, the first badge above `level` has the least such level. */
  lemma {:induction false} FindAboveIsLeast(badges: seq<Badge>, level: int)
    requires SortedBy(badges, LevelAscending)
    ensures var r := FindAbove(badges, level);
      r.Some? ==> forall k :: 0 <= k < |badges| && badges[k].levelRequired > level
                    ==> r.value.levelRequired <= badges[k].levelRequired
  {
    if badges != [] && badges[0].levelRequired <= level {
      FindAboveIsLeast(badges[1..], level);
      var r := FindAbove(badges, level);
      if r.Some? {
        forall k | 0 <= k < |badges| && badges[k].levelRequired > level
          ensures r.value.levelRequired <= badges[k].levelRequired
        {
          assert k > 0 && badges[k] == badges[1..][k - 1];
        }
      }
    }
  }

  /**
    `next_badge_level`: the level of the first catalogue badge above `level`,
    with 0 read as null; none when no badge lies above.
   */
  function NextBadgeLevel(sortedCatalog: seq<Badge>, level: int): (r: Option<int>)
    ensures r.Some? ==> r.value > level && exists k :: 0 <= k < |sortedCatalog| && sortedCatalog[k].levelRequired == r.value
    ensures r.None? && level >= 0 ==> forall k :: 0 <= k < |sortedCatalog| ==> sortedCatalog[k].levelRequired <= level
  {
    match FindAbove(sortedCatalog, level)
    case Some(b) => if b.levelRequired != 0 then Some(b.levelRequired) else None
    case None => None
  }

  /** The next badge level is the least catalogue level above the current level, if any is. */
  lemma NextBadgeLevelIsLeastAbove(catalog: seq<Badge>, level: nat)
    ensures var r := NextBadgeLevel(SortBy(catalog, LevelAscending), level);
      && (r.Some? <==> exists k :: 0 <= k < |catalog| && catalog[k].levelRequired > level)
      && (r.Some? ==> r.value > level && exists k :: 0 <= k < |catalog| && catalog[k].levelRequired == r.value)
      && (r.Some? ==> forall k :: 0 <= k < |catalog| && catalog[k].levelRequired > level
                        ==> r.value <= catalog[k].levelRequired)
  {
    var sorted := SortBy(catalog, LevelAscending);
    SortByMembers(catalog, LevelAscending);
    FindAboveIsLeast(sorted, level);
    var f := FindAbove(sorted, level);
    if f.Some? {
      assert f.value in catalog;
      var i :| 0 <= i < |catalog| && catalog[i] == f.value;
      forall k | 0 <= k < |catalog| && catalog[k].levelRequired > level
        ensures f.value.levelRequired <= catalog[k].levelRequired
      {
        assert catalog[k] in sorted;
        var j :| 0 <= j < |sorted| && sorted[j] == catalog[k];
      }
    } else {
      forall k | 0 <= k < |catalog| ensures catalog[k].levelRequired <= level {
        assert catalog[k] in sorted;
        var j :| 0 <= j < |sorted| && sorted[j] == catalog[k];
      }
    }
  }

  /** The status response; `StatusUnauthorized` is the 401. */
  datatype StatusResponse =
    | StatusUnauthorized
    | Status(checkins: seq<CheckinRecord>, allCheckins: seq<CheckinRecord>,
             totalCheckins: nat, currentLevel: nat,
             userBadges: seq<UserBadge>, selectedBadges: seq<SelectedBadge>,
             allBadges: seq<Badge>, nextBadgeLevel: Option<int>)

  /**
    GET: the caller's check-ins newest first and those of the last
    `RecentDays` days, the count as both total and level, the caller's grants
    newest first, the caller's selected badges by position, the catalogue by
    level, and the next badge level.
   */
  function GetStatus(db: Database, header: Option<string>, sessions: map<string, UserId>, today: int)
    : (r: StatusResponse)
    reads db
    ensures r.StatusUnauthorized? <==> Authenticate(header, sessions).None?
    ensures r.Status? ==>
      var user := Authenticate(header, sessions).value;
      && r.totalCheckins == r.currentLevel == |RowsOf(db.checkins, user)|
      && SortedBy(r.allCheckins, DateDescending)
      && multiset(r.allCheckins) == multiset(RowsOf(db.checkins, user))
      && (forall k :: 0 <= k < |r.checkins| ==> r.checkins[k] in r.allCheckins && r.checkins[k].checkinDate >= today - RecentDays)
      && (forall k :: 0 <= k < |r.allCheckins| && r.allCheckins[k].checkinDate >= today - RecentDays ==> r.allCheckins[k] in r.checkins)
      && SortedBy(r.userBadges, EarnedDescending)
      && multiset(r.userBadges) == multiset(Filter(db.userBadges, GrantOf(user)))
      && SortedBy(r.selectedBadges, PositionAscending)
      && multiset(r.selectedBadges) == multiset(Filter(db.selectedBadges, SelectionOf(user)))
      && SortedBy(r.allBadges, LevelAscending) && multiset(r.allBadges) == multiset(db.badges)
      && r.nextBadgeLevel == NextBadgeLevel(r.allBadges, r.currentLevel)
  {
    match Authenticate(header, sessions)
    case None => StatusUnauthorized
    case Some(user) =>
      var all := SortBy(RowsOf(db.checkins, user), DateDescending);
      var total := |all|;
      var allBadges := SortBy(db.badges, LevelAscending);
      SortByMembers(RowsOf(db.checkins, user), DateDescending);
      FilterMembers(all, RecentSince(today - RecentDays));
      Status(Filter(all, RecentSince(today - RecentDays)), all, total, total,
             SortBy(Filter(db.userBadges, GrantOf(user)), EarnedDescending),
             SortBy(Filter(db.selectedBadges, SelectionOf(user)), PositionAscending),
             allBadges, NextBadgeLevel(allBadges, total))
  }

  function RecentSince(cutoff: int): CheckinRecord -> bool
  {
    (c: CheckinRecord) => c.checkinDate >= cutoff
  }

  // ---------------------------------------------------------------------------
  // POST: check in

  /** The `force` member of a parsed body. */
  datatype ForceField = Absent | Flag(b: bool) | OtherValue

  /** The request body: unparsable (or empty), a JSON object, or any other JSON value. */
  datatype Body = Unparsable | JsonObject(force: ForceField) | OtherJson

  /** `body.force === true`; a body that does not parse, or any other value, means no force. */
  predicate ForceRequested(body: Body)
  {
    body == JsonObject(Flag(true))
  }

  /** The POST responses: 401, 400 with the existing row, 500 with the store's message, 201. */
  datatype PostResponse =
    | PostUnauthorized
    | AlreadyCheckedIn(existing: CheckinRecord)
    | InsertFailed(message: string)
    | Created(checkin: CheckinRecord, level: int, newBadge: Option<Badge>,
              totalCheckins: int, badgeAwarded: bool)
  {
    function StatusCode(): int
    {
      match this
      case PostUnauthorized => 401
      case AlreadyCheckedIn(_) => 400
      case InsertFailed(_) => 500
      case Created(_, _, _, _, _) => 201
    }
  }

  /**
    The writes of a check-in that passed the guard: the `daily_checkins`
    insert (rejected with `insertError`), then, for an awarded badge with a
    truthy id, the `user_badges` insert (rejected when `grantFails`), whose
    failure leaves the check-in in place.
   */
  method Commit(db: Database, user: UserId, checkinDate: int, newLevel: int, newBadge: Option<Badge>,
                now: int, insertError: Option<string>, grantFails: bool)
    returns (resp: PostResponse)
    modifies db
    ensures db.selectedBadges == old(db.selectedBadges) && db.badges == old(db.badges)
    ensures insertError.Some? ==> resp == InsertFailed(insertError.value)
    ensures insertError.Some? ==> db.checkins == old(db.checkins) && db.userBadges == old(db.userBadges)
    ensures insertError.None? ==>
      var badgeId := if newBadge.Some? then Some(newBadge.value.id) else None;
      var awarded := newBadge.Some? && newBadge.value.id != 0;
      var rec := CheckinRecord(user, checkinDate, newLevel, badgeId);
      && resp == Created(rec, newLevel, newBadge, newLevel, awarded)
      && db.checkins == old(db.checkins) + [rec]
      && db.userBadges == old(db.userBadges)
           + (if awarded && !grantFails then [UserBadge(user, newBadge.value.id, newLevel, None, now, now)] else [])
  {
    var newBadgeId: Option<int> := None;
    if newBadge.Some? {
      newBadgeId := Some(newBadge.value.id);
    }
    if insertError.Some? {
      return InsertFailed(insertError.value);
    }
    var newCheckin := CheckinRecord(user, checkinDate, newLevel, newBadgeId);
    db.checkins := db.checkins + [newCheckin];
    var awarded := newBadgeId.Some? && newBadgeId.value != 0;
    if awarded && !grantFails {
      db.userBadges := db.userBadges + [UserBadge(user, newBadgeId.value, newLevel, None, now, now)];
    }
    resp := Created(newCheckin, newLevel, newBadge, newLevel, awarded);
  }

  /**
    POST: checks the caller in. `today` and `now` stand for the clock,
    `insertError` for a rejected check-in insert and `grantFails` for a
    rejected grant insert.
   */
  method PostCheckin(db: Database, header: Option<string>, sessions: map<string, UserId>, body: Body,
                     today: int, now: int, insertError: Option<string>, grantFails: bool)
    returns (resp: PostResponse)
    modifies db
    ensures db.selectedBadges == old(db.selectedBadges) && db.badges == old(db.badges)
    ensures resp.PostUnauthorized? <==> Authenticate(header, sessions).None?
    ensures !resp.Created? ==> db.checkins == old(db.checkins) && db.userBadges == old(db.userBadges)
    ensures Authenticate(header, sessions).Some? ==>
      var user := Authenticate(header, sessions).value;
      var existing := Probe(old(db.checkins), user, today);
      && (resp.AlreadyCheckedIn? <==> !ForceRequested(body) && existing.Some?)
      && (resp.AlreadyCheckedIn? ==> resp.existing == existing.value)
      && (resp.InsertFailed? <==> (ForceRequested(body) || existing.None?) && insertError.Some?)
      && (resp.InsertFailed? ==> resp.message == insertError.value)
    ensures resp.Created? ==>
      var user := Authenticate(header, sessions).value;
      var count := |RowsOf(old(db.checkins), user)|;
      && Authenticate(header, sessions).Some?
      && resp.level == count + 1 && resp.totalCheckins == count + 1
      && resp.checkin.userId == user && resp.checkin.level == count + 1
      && (ForceRequested(body) ==> IsBackfillDate(old(db.checkins), user, today, count, resp.checkin.checkinDate))
      && (!ForceRequested(body) ==> resp.checkin.checkinDate == today)
      && resp.newBadge == AwardedBadge(old(db.badges), count + 1)
      && resp.checkin.badgeId == (if resp.newBadge.Some? then Some(resp.newBadge.value.id) else None)
      && resp.badgeAwarded == (resp.newBadge.Some? && resp.newBadge.value.id != 0)
      && db.checkins == old(db.checkins) + [resp.checkin]
      && db.userBadges == old(db.userBadges)
           + (if resp.badgeAwarded && !grantFails
              then [UserBadge(user, resp.newBadge.value.id, count + 1, None, now, now)]
              else [])
    ensures resp.Created? ==> |RowsOf(db.checkins, resp.checkin.userId)| == resp.totalCheckins
    ensures LevelsAreCounts(old(db.checkins)) ==> LevelsAreCounts(db.checkins)
    ensures OneRowPerDay(old(db.checkins)) && !ForceRequested(body) ==> OneRowPerDay(db.checkins)
    ensures GrantsEarned(old(db.checkins), old(db.userBadges)) ==> GrantsEarned(db.checkins, db.userBadges)
    ensures GrantsEarned(old(db.checkins), old(db.userBadges)) && OneGrantPerLevel(old(db.userBadges))
            ==> OneGrantPerLevel(db.userBadges)
    ensures GrantsMatchCatalogue(old(db.userBadges), old(db.badges)) ==> GrantsMatchCatalogue(db.userBadges, db.badges)
    ensures OneRowPerDay(old(db.checkins)) && resp.Created?
            && IsFree(old(db.checkins), resp.checkin.userId, resp.checkin.checkinDate)
            ==> OneRowPerDay(db.checkins)
  {
    var auth := Authenticate(header, sessions);
    if auth.None? {
      return PostUnauthorized;
    }
    var user := auth.value;
    var force := ForceRequested(body);

    var totalCheckins := |RowsOf(db.checkins, user)|;
    var newLevel := totalCheckins + 1;

    if !force {
      var existingCheckin := Probe(db.checkins, user, today);
      if existingCheckin.Some? {
        return AlreadyCheckedIn(existingCheckin.value);
      }
    }

    var checkinDate;
    if force {
      checkinDate := BackfillDate(db.checkins, user, today, totalCheckins);
    } else {
      checkinDate := today;
    }

    var newBadge: Option<Badge> := None;
    if ShouldAwardBadge(newLevel) {
      newBadge := MaybeSingle(Filter(db.badges, RequiringLevel(newLevel)));
    }

    ghost var before, grantsBefore := db.checkins, db.userBadges;
    resp := Commit(db, user, checkinDate, newLevel, newBadge, now, insertError, grantFails);
    if resp.Created? {
      CommitKeepsLedgerInvariants(before, resp.checkin);
      assert newBadge == AwardedBadge(db.badges, newLevel);
      CommitKeepsGrantInvariants(before, grantsBefore, db.badges, resp.checkin, newBadge,
                                 resp.badgeAwarded && !grantFails, now);
    }
  }

  /** What a committed check-in does to the ledger's invariants and to its user's count. */
  lemma CommitKeepsLedgerInvariants(ledger: seq<CheckinRecord>, rec: CheckinRecord)
    requires rec.level == |RowsOf(ledger, rec.userId)| + 1
    ensures |RowsOf(ledger + [rec], rec.userId)| == rec.level
    ensures LevelsAreCounts(ledger) ==> LevelsAreCounts(ledger + [rec])
    ensures OneRowPerDay(ledger) && IsFree(ledger, rec.userId, rec.checkinDate) ==> OneRowPerDay(ledger + [rec])
  {
    FilterAppend(ledger, rec, CheckinOf(rec.userId));
    if LevelsAreCounts(ledger) {
      AppendNextLevel(ledger, rec);
    }
    if OneRowPerDay(ledger) && IsFree(ledger, rec.userId, rec.checkinDate) {
      AppendOnFreeDay(ledger, rec);
    }
  }

  // ---------------------------------------------------------------------------
  // Clients: what a caller can conclude from the contracts above

  /**
    A forced check-in whose candidate date is free lands on the candidate, at
    the next level, with whatever badge the catalogue awards for that level.
   */
  method ForcedOnFreeCandidate(db: Database, header: Option<string>, sessions: map<string, UserId>, today: int)
    returns (resp: PostResponse)
    requires Authenticate(header, sessions).Some?
    requires FreeDaysBack(db.checkins, Authenticate(header, sessions).value, today,
                          |RowsOf(db.checkins, Authenticate(header, sessions).value)|)
    modifies db
    ensures db.badges == old(db.badges)
    ensures var user := Authenticate(header, sessions).value;
      var count := |RowsOf(old(db.checkins), user)|;
      && resp.Created?
      && resp.checkin.userId == user
      && resp.checkin.checkinDate == today - count
      && resp.checkin.level == resp.totalCheckins == count + 1
      && resp.newBadge == AwardedBadge(old(db.badges), count + 1)
      && db.checkins == old(db.checkins) + [resp.checkin]
  {
    resp := PostCheckin(db, header, sessions, JsonObject(Flag(true)), today, 0, None, false);
  }

  /** Three forced check-ins on an empty ledger land on today, yesterday and the day before, at levels 1, 2, 3. */
  method ForcedStreakFromEmpty(user: UserId, today: int) returns (first: PostResponse, second: PostResponse, third: PostResponse)
    ensures first.Created? && second.Created? && third.Created?
    ensures first.checkin.level == 1 && second.checkin.level == 2 && third.checkin.level == 3
    ensures first.checkin.checkinDate == today
    ensures second.checkin.checkinDate == today - 1
    ensures third.checkin.checkinDate == today - 2
  {
    var db := new Database([], [], [], []);
    var sessions := map["token" := user];
    var header := Some(BearerPrefix + "token");
    BearerHeaderResolves("token", sessions);
    assert Authenticate(header, sessions) == Some(user);

    assert FreeDaysBack([], user, today, |RowsOf([], user)|);
    first := ForcedOnFreeCandidate(db, header, sessions, today);
    ghost var one := db.checkins;
    assert one == [first.checkin];
    StreakOfOne(user, today, first.checkin);
    assert FreeDaysBack(one, user, today, |RowsOf(one, user)|);
    second := ForcedOnFreeCandidate(db, header, sessions, today);
    ghost var two := db.checkins;
    assert two == [first.checkin, second.checkin];
    StreakOfTwo(user, today, first.checkin, second.checkin);
    assert FreeDaysBack(two, user, today, |RowsOf(two, user)|);
    third := ForcedOnFreeCandidate(db, header, sessions, today);
  }

  lemma StreakOfOne(user: UserId, today: int, r1: CheckinRecord)
    requires r1.userId == user && r1.checkinDate == today
    ensures |RowsOf([r1], user)| == 1 && FreeDaysBack([r1], user, today, 1)
  {
    FilterAppend([], r1, CheckinOf(user));
    FilterAppend([], r1, CheckinOn(user, today - 1));
  }

  lemma StreakOfTwo(user: UserId, today: int, r1: CheckinRecord, r2: CheckinRecord)
    requires r1.userId == user && r1.checkinDate == today
    requires r2.userId == user && r2.checkinDate == today - 1
    ensures |RowsOf([r1, r2], user)| == 2 && FreeDaysBack([r1, r2], user, today, 2)
  {
    assert [r1] + [r2] == [r1, r2];
    FilterAppend([], r1, CheckinOf(user));
    FilterAppend([r1], r2, CheckinOf(user));
    FilterAppend([], r1, CheckinOn(user, today - 2));
    FilterAppend([r1], r2, CheckinOn(user, today - 2));
  }

  /** A second ordinary check-in on the same day is refused with the first one, and the count stays 1. */
  method SameDayTwice(user: UserId, today: int) returns (first: PostResponse, second: PostResponse, total: nat)
    ensures first.Created? && first.checkin.checkinDate == today
    ensures second == AlreadyCheckedIn(first.checkin)
    ensures total == 1
  {
    var db := new Database([], [], [], []);
    var sessions := map["token" := user];
    var header := Some(BearerPrefix + "token");
    BearerHeaderResolves("token", sessions);

    first := PostCheckin(db, header, sessions, Unparsable, today, 0, None, false);
    ghost var r1 := first.checkin;
    assert Filter([r1], CheckinOn(user, today)) == [r1] by { FilterAppend([], r1, CheckinOn(user, today)); }
    second := PostCheckin(db, header, sessions, Unparsable, today, 0, None, false);
    var status := GetStatus(db, header, sessions, today);
    total := status.totalCheckins;
  }
}

=== FILE: rows.dfy ===
/**
  Table rows as sequences: the small toolkit the route handlers use to read the
  hosted tables. `Filter` is an `.eq(...)` selection, `MaybeSingle` is a
  `.maybeSingle()` read and `SortBy` is an `.order(...)`.
 */
module Rows {

  datatype Option<+T> = None | Some(value: T)
  {
    /** The value, or `default` for none (`x || default`). */
    function GetOr(default: T): T
    {
      match this
      case Some(v) => v
      case None => default
    }
  }

  /** The rows of `s` that satisfy `p`, in table order. */
  function Filter<T>(s: seq<T>, p: T -> bool): (r: seq<T>)
    ensures |r| <= |s|
    decreases |s|
  {
    if s == [] then []
    else Filter(s[..|s| - 1], p) + (if p(s[|s| - 1]) then [s[|s| - 1]] else [])
  }

  /** The selection holds exactly the matching rows of `s`. */
  lemma {:induction false} FilterMembers<T>(s: seq<T>, p: T -> bool)
    ensures forall k :: 0 <= k < |Filter(s, p)| ==> Filter(s, p)[k] in s && p(Filter(s, p)[k])
    ensures forall k :: 0 <= k < |s| && p(s[k]) ==> s[k] in Filter(s, p)
    decreases |s|
  {
    if s != [] {
      var init, last := s[..|s| - 1], s[|s| - 1];
      FilterMembers(init, p);
      var r := Filter(s, p);
      assert r == Filter(init, p) + (if p(last) then [last] else []);
      forall k | 0 <= k < |r| ensures r[k] in s && p(r[k]) {
        if k < |Filter(init, p)| {
          assert r[k] == Filter(init, p)[k];
          assert r[k] in init;
        }
      }
      forall k | 0 <= k < |s| && p(s[k]) ensures s[k] in r {
        if k < |init| {
          assert s[k] == init[k];
        }
      }
    }
  }

  /** Appending a row extends the selection by that row exactly when it matches. */
  lemma FilterAppend<T>(s: seq<T>, x: T, p: T -> bool)
    ensures Filter(s + [x], p) == Filter(s, p) + (if p(x) then [x] else [])
  {
    assert (s + [x])[..|s + [x]| - 1] == s;
  }

  /** Nothing is selected exactly when no row matches. */
  lemma {:induction false} FilterEmptyIffNone<T>(s: seq<T>, p: T -> bool)
    ensures Filter(s, p) == [] <==> forall k :: 0 <= k < |s| ==> !p(s[k])
  {
    FilterMembers(s, p);
    if Filter(s, p) != [] {
      var x := Filter(s, p)[0];
      var k :| 0 <= k < |s| && s[k] == x;
    }
  }

  /** When no two rows match, at most one row is selected. */
  lemma {:induction false} FilterAtMostOne<T>(s: seq<T>, p: T -> bool)
    requires forall i, j :: 0 <= i < j < |s| && p(s[i]) ==> !p(s[j])
    ensures |Filter(s, p)| <= 1
    decreases |s|
  {
    if s != [] {
      var init, last := s[..|s| - 1], s[|s| - 1];
      assert s == init + [last];
      FilterAtMostOne(init, p);
      FilterAppend(init, last, p);
      if p(last) {
        forall k | 0 <= k < |init| ensures !p(init[k]) {
          assert init[k] == s[k];
        }
        FilterEmptyIffNone(init, p);
      }
    }
  }

  /**
    A `.maybeSingle()` read: the row when exactly one row matches; no row when
    none or several match (the client reports several as an error and no data).
   */
  function MaybeSingle<T>(rows: seq<T>): (r: Option<T>)
    ensures r.Some? <==> |rows| == 1
    ensures r.Some? ==> rows == [r.value]
  {
    if |rows| == 1 then Some(rows[0]) else None
  }

  /** `key` never decreases along `s`. */
  ghost predicate SortedBy<T>(s: seq<T>, key: T -> int)
  {
    forall i, j :: 0 <= i < j < |s| ==> key(s[i]) <= key(s[j])
  }

  /** Inserts `x` into the sorted `s`, before the first row whose key is not smaller. */
  function InsertBy<T>(x: T, s: seq<T>, key: T -> int): (r: seq<T>)
    requires SortedBy(s, key)
    ensures SortedBy(r, key)
    ensures multiset(r) == multiset(s) + multiset{x}
    decreases |s|
  {
    if s == [] || key(x) <= key(s[0]) then [x] + s
    else
      var rest := InsertBy(x, s[1..], key);
      LowerBoundKept(s[0], x, s[1..], rest, key);
      assert s == [s[0]] + s[1..];
      [s[0]] + rest
  }

  /** A lower bound of `x` and of every row of `s` bounds every row of a reordering of `s + [x]`. */
  lemma LowerBoundKept<T>(y: T, x: T, s: seq<T>, r: seq<T>, key: T -> int)
    requires key(y) <= key(x)
    requires forall k :: 0 <= k < |s| ==> key(y) <= key(s[k])
    requires multiset(r) == multiset(s) + multiset{x}
    ensures forall k :: 0 <= k < |r| ==> key(y) <= key(r[k])
  {
    forall k | 0 <= k < |r| ensures key(y) <= key(r[k]) {
      assert r[k] in multiset(r);
      if r[k] != x {
        assert r[k] in multiset(s);
        var i :| 0 <= i < |s| && s[i] == r[k];
      }
    }
  }

  /** The rows of `s` ordered by ascending `key`; rows with equal keys keep their table order. */
  function SortBy<T>(s: seq<T>, key: T -> int): (r: seq<T>)
    ensures SortedBy(r, key)
    ensures multiset(r) == multiset(s)
    decreases |s|
  {
    if s == [] then []
    else
      var r := InsertBy(s[0], SortBy(s[1..], key), key);
      assert s == [s[0]] + s[1..];
      r
  }

  /** Sorting keeps exactly the rows it was given. */
  lemma SortByMembers<T>(s: seq<T>, key: T -> int)
    ensures |SortBy(s, key)| == |s|
    ensures forall x :: x in SortBy(s, key) <==> x in s
  {
    var r := SortBy(s, key);
    assert |r| == |multiset(r)| == |multiset(s)| == |s|;
    forall x ensures x in r <==> x in s {
      assert x in r <==> x in multiset(r);
      assert x in s <==> x in multiset(s);
    }
  }
}

=== FILE: schema.dfy ===
/**
  The rows of the hosted tables the route handlers read and write, and the
  database as one object whose tables the handlers update.
 */
module Schema {
  import opened Rows

  /** The identity provider's user id. */
  type UserId = string

  /**
    A row of `daily_checkins`. Calendar dates are day numbers; `level` is the
    1-based number of the user's check-ins when the row was written.
   */
  datatype CheckinRecord = CheckinRecord(userId: UserId, checkinDate: int, level: int, badgeId: Option<int>)

  /** A row of the read-only badge catalogue `badges`. */
  datatype Badge = Badge(id: int, name: string, levelRequired: int, rarity: string)

  /**
    A row of `user_badges`: a grant of a badge to a user, and the profile slot
    (1..5) it is equipped in, if any. Timestamps are instants as numbers.
   */
  datatype UserBadge = UserBadge(userId: UserId, badgeId: int, levelEarned: int,
                                 equippedSlot: Option<int>, earnedAt: int, createdAt: int)

  /** A row of `user_selected_badges`: a badge shown at a profile position. */
  datatype SelectedBadge = SelectedBadge(userId: UserId, badgeId: int, position: int)

  /** The tables, each in storage order. */
  class Database {
    var checkins: seq<CheckinRecord>
    var userBadges: seq<UserBadge>
    var selectedBadges: seq<SelectedBadge>
    var badges: seq<Badge>

    constructor (checkins: seq<CheckinRecord>, userBadges: seq<UserBadge>,
                 selectedBadges: seq<SelectedBadge>, badges: seq<Badge>)
      ensures this.checkins == checkins && this.userBadges == userBadges
      ensures this.selectedBadges == selectedBadges && this.badges == badges
    {
      this.checkins := checkins;
      this.userBadges := userBadges;
      this.selectedBadges := selectedBadges;
      this.badges := badges;
    }
  }

  // Row selections (`.eq('user_id', ...)` and friends) as predicates on rows.

  function CheckinOf(user: UserId): CheckinRecord -> bool
  {
    (c: CheckinRecord) => c.userId == user
  }

  function CheckinOn(user: UserId, date: int): CheckinRecord -> bool
  {
    (c: CheckinRecord) => c.userId == user && c.checkinDate == date
  }

  function GrantOf(user: UserId): UserBadge -> bool
  {
    (g: UserBadge) => g.userId == user
  }

  function SelectionOf(user: UserId): SelectedBadge -> bool
  {
    (s: SelectedBadge) => s.userId == user
  }

  function RequiringLevel(level: int): Badge -> bool
  {
    (b: Badge) => b.levelRequired == level
  }

  // Sort keys (`.order(...)`); a descending order sorts by the negated column.

  function DateDescending(c: CheckinRecord): int { -c.checkinDate }

  function EarnedDescending(g: UserBadge): int { -g.earnedAt }

  function CreatedDescending(g: UserBadge): int { -g.createdAt }

  function PositionAscending(s: SelectedBadge): int { s.position }

  function LevelAscending(b: Badge): int { b.levelRequired }
}

=== FILE: search.dfy ===
/**
  The catalogue search route: turns the `q` and `page` parameters into a
  query on the `hotwheels` table (a page window, an optional rarity filter,
  and name/series pattern clauses) and shapes the reply.
 */
module Search {
  import opened Rows
  import opened Text

  /** Rows per page. */
  const PageSize := 16

  // ---------------------------------------------------------------------------
  // Rarity markers

  datatype Rarity = STH | CHASE | TH
  {
    /** The value compared with the `rarity` column. */
    function Name(): string
    {
      match this
      case STH => "STH"
      case CHASE => "CHASE"
      case TH => "TH"
    }
  }

  /** The marker a query asks for, by priority: "sth", then "chase", then "th". */
  function DetectRarity(text: string): (r: Option<Rarity>)
    ensures Contains(text, "sth") ==> r == Some(STH)
    ensures !Contains(text, "sth") && Contains(text, "chase") ==> r == Some(CHASE)
    ensures !Contains(text, "sth") && !Contains(text, "chase") && Contains(text, "th") ==> r == Some(TH)
    ensures r == Some(TH) ==> !Contains(text, "sth") && !Contains(text, "chase")
    ensures r.None? <==> !Contains(text, "th") && !Contains(text, "chase")
  {
    if Contains(text, "sth") then
      ContainsTransitive(text, "sth", "th", 1);
      Some(STH)
    else if Contains(text, "chase") then Some(CHASE)
    else if Contains(text, "th") then Some(TH)
    else None
  }

  /** `s` starts with the lower-case `pat`, ignoring case (the regular expression's `i` flag). */
  predicate MatchesAt(s: string, pat: string)
  {
    |pat| <= |s| && ToLower(s[..|pat|]) == pat
  }

  /** Every character of `s` is already its own lower case. */
  predicate IsLowered(s: string)
  {
    forall k :: 0 <= k < |s| ==> Lower(s[k]) == s[k]
  }

  /**
    The alternative of `/sth|chase|th/i` that matches at the front of `s`, tried
    in the order written; none when no alternative matches there.
   */
  function FrontMarker(s: string): (m: Option<string>)
    ensures m.Some? ==> m.value in {"sth", "chase", "th"} && |m.value| <= |s|
  {
    if MatchesAt(s, "sth") then Some("sth")
    else if MatchesAt(s, "chase") then Some("chase")
    else if MatchesAt(s, "th") then Some("th")
    else None
  }

  /** The alternatives are tried in the order written, and the one chosen matches at the front. */
  lemma FrontMarkerPriority(s: string)
    ensures var m := FrontMarker(s);
      && (m.Some? ==> MatchesAt(s, m.value))
      && (MatchesAt(s, "sth") ==> m == Some("sth"))
      && (!MatchesAt(s, "sth") && MatchesAt(s, "chase") ==> m == Some("chase"))
      && (!MatchesAt(s, "sth") && !MatchesAt(s, "chase") && MatchesAt(s, "th") ==> m == Some("th"))
      && (m.None? <==> !MatchesAt(s, "sth") && !MatchesAt(s, "chase") && !MatchesAt(s, "th"))
  {
  }

  /** `a` is `b` with some characters deleted: what is kept stays in order. */
  ghost predicate IsSubseq(a: string, b: string)
    decreases |b|
  {
    if b == [] then a == []
    else IsSubseq(a, b[1..]) || (a != [] && a[0] == b[0] && IsSubseq(a[1..], b[1..]))
  }

  /** What is kept from a suffix of `s` is kept from `s`. */
  lemma {:induction false} SubseqOfSuffix(a: string, s: string, n: nat)
    requires n <= |s|
    requires IsSubseq(a, s[n..])
    ensures IsSubseq(a, s)
    decreases n
  {
    if n > 0 {
      assert s[n..] == s[1..][n - 1..];
      SubseqOfSuffix(a, s[1..], n - 1);
    } else {
      assert s[n..] == s;
    }
  }

  /**
    `text.replace(/sth|chase|th/gi, "")`: one left-to-right pass that, at each
    position, removes the first alternative that matches there and otherwise
    keeps the character and moves on. The result keeps characters of `s` in
    their order.
   */
  function StripMarkers(s: string): (r: string)
    ensures |r| <= |s|
    ensures multiset(r) <= multiset(s)
    ensures IsSubseq(r, s)
    decreases |s|
  {
    if s == [] then []
    else match FrontMarker(s)
      case Some(m) =>
        assert s == s[..|m|] + s[|m|..];
        var r := StripMarkers(s[|m|..]);
        SubseqOfSuffix(r, s, |m|);
        r
      case None =>
        assert s == [s[0]] + s[1..];
        var r := [s[0]] + StripMarkers(s[1..]);
        assert r[1..] == StripMarkers(s[1..]);
        r
  }

  /** A first character where no alternative matches is kept. */
  lemma StripUnmatchedFront(s: string)
    requires s != [] && FrontMarker(s).None?
    ensures StripMarkers(s) == [s[0]] + StripMarkers(s[1..])
  {
  }

  /** Keeping the first character, then `i - 1` more, keeps the first `i`. */
  lemma KeptPrefix(s: string, i: nat, whole: string, rest: string, tail: string)
    requires 0 < i <= |s|
    requires whole == [s[0]] + rest && rest == s[1..][..i - 1] + tail
    ensures whole == s[..i] + tail
  {
    assert s[..i] == [s[0]] + s[1..][..i - 1];
  }

  /** Positions where no alternative matches are kept as they are, up to index `i`. */
  lemma {:induction false} StripKeepsUnmatched(s: string, i: nat)
    requires i <= |s|
    requires forall k :: 0 <= k < i ==> FrontMarker(s[k..]).None?
    ensures StripMarkers(s) == s[..i] + StripMarkers(s[i..])
    decreases i
  {
    if i > 0 {
      assert s[0..] == s;
      StripUnmatchedFront(s);
      assert StripMarkers(s[1..]) == s[1..][..i - 1] + StripMarkers(s[i..]) by {
        forall k | 0 <= k < i - 1 ensures FrontMarker(s[1..][k..]).None? {
          assert s[1..][k..] == s[k + 1..];
        }
        StripKeepsUnmatched(s[1..], i - 1);
        assert s[1..][i - 1..] == s[i..];
      }
      KeptPrefix(s, i, StripMarkers(s), StripMarkers(s[1..]), StripMarkers(s[i..]));
    } else {
      assert s[..0] == [] && s[0..] == s;
    }
  }

  /**
    Stripping removes the first marker occurrence: when `i` is the least index
    where an alternative matches, the characters before it are kept, the
    alternative matched there is removed, and stripping carries on after it.
   */
  lemma StripRemovesFirstMatch(s: string, i: nat)
    requires i < |s| && FrontMarker(s[i..]).Some?
    requires forall k :: 0 <= k < i ==> FrontMarker(s[k..]).None?
    ensures var m := FrontMarker(s[i..]).value;
      i + |m| <= |s| && StripMarkers(s) == s[..i] + StripMarkers(s[i + |m|..])
  {
    StripKeepsUnmatched(s, i);
    var m := FrontMarker(s[i..]).value;
    assert s[i..][|m|..] == s[i + |m|..];
  }

  /** A text where no alternative matches at any position comes through stripping unchanged. */
  lemma StripWithoutMatch(s: string)
    requires forall k :: 0 <= k < |s| ==> FrontMarker(s[k..]).None?
    ensures StripMarkers(s) == s
  {
    StripKeepsUnmatched(s, |s|);
    assert s[..|s|] == s && s[|s|..] == [];
  }

  /** One pass can leave a marker behind: removing the inner "th" of "tthh" joins a new "th". */
  lemma OnePassLeavesMarker(s: string)
    requires s == "tthh"
    ensures StripMarkers(s) == "th" && Contains(StripMarkers(s), "th")
  {
    TthhMatches(s);
    StripRemovesFirstMatch(s, 1);
    LastLetterKept(s[3..]);
    assert s[..1] + s[3..] == "th";
    OccurrenceIsContained("th", "th", 0);
  }

  /** In "tthh" nothing matches at index 0 and "th" matches at index 1. */
  lemma TthhMatches(s: string)
    requires s == "tthh"
    ensures FrontMarker(s[0..]).None? && FrontMarker(s[1..]) == Some("th")
  {
    assert s[0..] == s;
    assert ToLower(s[..3])[0] == 't' && ToLower(s[..2])[1] == 't';
    assert ToLower(s[1..][..3])[0] == 't';
    assert s[1..][..2] == "th" && ToLower("th") == "th";
  }

  /** A lone "h" comes through stripping. */
  lemma LastLetterKept(r: string)
    requires r == "h"
    ensures StripMarkers(r) == r
  {
    assert FrontMarker(r).None?;
    StripUnmatchedFront(r);
    assert r[1..] == [];
  }

  /** A pattern occurring in a suffix occurs in the whole string. */
  lemma ContainsInSuffix(s: string, pat: string)
    requires s != []
    ensures Contains(s[1..], pat) ==> Contains(s, pat)
  {
    if Contains(s[1..], pat) {
      var i := IndexOf(s[1..], pat).value;
      assert s[i + 1..i + 1 + |pat|] == s[1..][i..i + |pat|];
      OccurrenceIsContained(s, pat, i + 1);
    }
  }

  /** On lower-case text, a marker matched at the front is contained in the text. */
  lemma MatchIsContained(s: string, pat: string)
    requires IsLowered(s)
    ensures MatchesAt(s, pat) ==> Contains(s, pat)
  {
    if MatchesAt(s, pat) {
      assert ToLower(s[..|pat|]) == s[..|pat|];
      OccurrenceIsContained(s, pat, 0);
    }
  }

  /** On lower-case text where no marker is detected, stripping removes nothing. */
  lemma {:induction false} StripWithoutMarkers(s: string)
    requires IsLowered(s)
    requires DetectRarity(s).None?
    ensures StripMarkers(s) == s
    decreases |s|
  {
    if s != [] {
      MatchIsContained(s, "sth");
      MatchIsContained(s, "chase");
      MatchIsContained(s, "th");
      ContainsInSuffix(s, "th");
      ContainsInSuffix(s, "chase");
      StripWithoutMarkers(s[1..]);
      assert s == [s[0]] + s[1..];
    }
  }

  /**
    Markers are matched inside words too: a model name containing "th" asks
    for the TH rarity.
   */
  lemma MarkerInsideName()
    ensures DetectRarity("plymouth") == Some(TH)
  {
    var s := "plymouth";
    FirstCharacterMissing(s, "sth");
    FirstCharacterMissing(s, "chase");
    assert OccursAt(s, "th", 6);
    OccurrenceIsContained(s, "th", 6);
  }

  // ---------------------------------------------------------------------------
  // Words

  /** The length of the run of non-space characters at the front of `s`. */
  function RunLength(s: string): (n: nat)
    ensures n <= |s|
    ensures forall k :: 0 <= k < n ==> !IsSpace(s[k])
    ensures n == |s| || IsSpace(s[n])
    decreases |s|
  {
    if s == [] || IsSpace(s[0]) then 0 else 1 + RunLength(s[1..])
  }

  /** `s.split(/\s+/).filter(Boolean)`: the maximal runs of non-space characters, in order. */
  function Words(s: string): (ws: seq<string>)
    ensures forall i :: 0 <= i < |ws| ==> ws[i] != []
    ensures forall i, k :: 0 <= i < |ws| && 0 <= k < |ws[i]| ==> !IsSpace(ws[i][k])
    decreases |s|
  {
    if s == [] then []
    else if IsSpace(s[0]) then Words(s[1..])
    else
      var n := RunLength(s);
      [s[..n]] + Words(s[n..])
  }

  /** The non-space characters of `s`, in order. */
  function DropSpaces(s: string): string
    decreases |s|
  {
    if s == [] then [] else (if IsSpace(s[0]) then [] else [s[0]]) + DropSpaces(s[1..])
  }

  function Concat(ws: seq<string>): string
  {
    if ws == [] then [] else ws[0] + Concat(ws[1..])
  }

  lemma {:induction false} DropSpacesAppend(a: string, b: string)
    ensures DropSpaces(a + b) == DropSpaces(a) + DropSpaces(b)
    decreases |a|
  {
    if a != [] {
      assert (a + b)[0] == a[0];
      assert (a + b)[1..] == a[1..] + b;
      DropSpacesAppend(a[1..], b);
    } else {
      assert a + b == b;
    }
  }

  lemma {:induction false} DropSpacesOfWord(w: string)
    requires forall k :: 0 <= k < |w| ==> !IsSpace(w[k])
    ensures DropSpaces(w) == w
    decreases |w|
  {
    if w != [] {
      DropSpacesOfWord(w[1..]);
    }
  }

  /** Splitting into words loses only white space: the words, run together, are the non-space characters. */
  lemma {:induction false} WordsKeepEveryCharacter(s: string)
    ensures Concat(Words(s)) == DropSpaces(s)
    decreases |s|
  {
    if s != [] {
      if IsSpace(s[0]) {
        WordsKeepEveryCharacter(s[1..]);
      } else {
        var n := RunLength(s);
        WordsKeepEveryCharacter(s[n..]);
        assert s == s[..n] + s[n..];
        DropSpacesAppend(s[..n], s[n..]);
        DropSpacesOfWord(s[..n]);
        var ws := Words(s);
        assert ws == [s[..n]] + Words(s[n..]);
        assert ws[1..] == Words(s[n..]);
      }
    }
  }

  /** There are no words exactly when the text is blank. */
  lemma {:induction false} NoWordsIffBlank(s: string)
    ensures Words(s) == [] <==> IsBlank(s)
    decreases |s|
  {
    if s != [] {
      if IsSpace(s[0]) {
        NoWordsIffBlank(s[1..]);
        if IsBlank(s[1..]) {
          forall k | 0 <= k < |s| ensures IsSpace(s[k]) {
            if k > 0 { assert s[k] == s[1..][k - 1]; }
          }
        }
      }
    }
  }

  /** Skipping a non-space run stops at the first white space: what follows it does not matter. */
  lemma {:induction false} RunStopsAtSpace(a: string, c: char, b: string)
    requires IsSpace(c)
    ensures RunLength(a + [c] + b) == RunLength(a)
    decreases |a|
  {
    var s := a + [c] + b;
    if a == [] {
      assert s[0] == c;
    } else if !IsSpace(a[0]) {
      assert s[0] == a[0];
      assert s[1..] == a[1..] + [c] + b;
      RunStopsAtSpace(a[1..], c, b);
    } else {
      assert s[0] == a[0];
    }
  }

  /** Words break exactly at white space: a space splits the text into the words before it and the words after it. */
  lemma {:induction false} WordsSplitAtSpace(a: string, c: char, b: string)
    requires IsSpace(c)
    ensures Words(a + [c] + b) == Words(a) + Words(b)
    decreases |a|
  {
    var s := a + [c] + b;
    if a == [] {
      assert Words(s) == Words(b) by {
        assert s[0] == c && s[1..] == b;
      }
    } else if IsSpace(a[0]) {
      assert Words(s) == Words(a[1..] + [c] + b) by {
        assert s[0] == a[0] && s[1..] == a[1..] + [c] + b;
      }
      WordsSplitAtSpace(a[1..], c, b);
    } else {
      var n := RunLength(a);
      assert Words(s) == [a[..n]] + Words(a[n..] + [c] + b) by {
        assert s[0] == a[0];
        RunStopsAtSpace(a, c, b);
        assert s[..n] == a[..n] && s[n..] == a[n..] + [c] + b;
      }
      WordsSplitAtSpace(a[n..], c, b);
    }
  }

  /** A non-empty text without white space is a single word: itself. */
  lemma SingleWord(w: string)
    requires w != []
    requires forall k :: 0 <= k < |w| ==> !IsSpace(w[k])
    ensures Words(w) == [w]
  {
    assert RunLength(w) == |w|;
    assert w[..|w|] == w;
    assert w[|w|..] == [];
  }

  /** A trimmed, non-empty text that splits into fewer than two words is one word: itself. */
  lemma OneWordIsWhole(s: string)
    requires IsTrimmed(s) && s != []
    requires |Words(s)| < 2
    ensures Words(s) == [s]
  {
    var n := RunLength(s);
    if n < |s| {
      var rest := s[n..];
      assert rest[|rest| - 1] == s[|s| - 1];
      NoWordsIffBlank(rest);
      assert false;
    }
    assert s[..n] == s;
    assert s[n..] == [];
  }

  // ---------------------------------------------------------------------------
  // The query

  /** An `ilike '%pattern%'` condition on the name or the series column. */
  datatype Clause = NameLike(pattern: string) | SeriesLike(pattern: string)

  /**
    The `.or(...)` conditions: none for an empty text; for two words or more,
    the whole text and the first two words on the name and the two words on
    the series; otherwise the whole text on name and on series.
   */
  function TextClauses(cleaned: string): (cs: seq<Clause>)
    requires IsTrimmed(cleaned)
    ensures cs == [] <==> cleaned == []
    ensures forall k :: 0 <= k < |cs| ==> cs[k].pattern != []
    ensures cleaned != [] ==> cs[0] == NameLike(cleaned)
    ensures cleaned != [] && |Words(cleaned)| < 2 ==> cs == [NameLike(cleaned), SeriesLike(cleaned)]
    ensures |Words(cleaned)| >= 2 ==>
      var ws := Words(cleaned);
      cs == [NameLike(cleaned), NameLike(ws[0]), NameLike(ws[1]), SeriesLike(ws[0]), SeriesLike(ws[1])]
  {
    var words := Words(cleaned);
    if cleaned == [] then []
    else if |words| >= 2 then
      [NameLike(cleaned), NameLike(words[0]), NameLike(words[1]), SeriesLike(words[0]), SeriesLike(words[1])]
    else [NameLike(cleaned), SeriesLike(cleaned)]
  }

  /** The first row index of a page (`range` start). */
  function PageStart(page: int): int
  {
    (page - 1) * PageSize
  }

  /** The last row index of a page (`range` end, inclusive). */
  function PageEnd(page: int): int
  {
    page * PageSize - 1
  }

  /** A page window holds exactly `PageSize` positions, and the next page starts right after it. */
  lemma PageWindows(page: int)
    ensures PageEnd(page) - PageStart(page) + 1 == PageSize
    ensures PageStart(page + 1) == PageEnd(page) + 1
  {
  }

  /** Every row index lies in the window of exactly one page, page `i / 16 + 1`. */
  lemma {:induction false} RowOnOnePage(i: nat, page: int)
    ensures PageStart(i / PageSize + 1) <= i <= PageEnd(i / PageSize + 1)
    ensures PageStart(page) <= i <= PageEnd(page) ==> page == i / PageSize + 1
  {
    var p := i / PageSize + 1;
    assert i == (p - 1) * PageSize + i % PageSize;
  }

  /** A query on `hotwheels`, ordered by name. */
  datatype Query = Query(first: int, last: int, rarity: Option<Rarity>, anyOf: seq<Clause>)

  /**
    `q.toLowerCase().trim()`: the lower-cased characters of `q` between its
    leading and trailing white space; empty exactly for a blank `q`.
   */
  function Normalize(q: string): (r: string)
    ensures |r| <= |q|
    ensures IsTrimmed(r) && IsLowered(r)
    ensures r == [] <==> IsBlank(q)
    ensures exists i :: SliceBetweenBlanks(ToLower(q), r, i)
  {
    LoweredSliceIsLowered(q, Trim(ToLower(q)));
    Trim(ToLower(q))
  }

  /** Lower-casing twice is lower-casing once, so any slice of a lower-cased text is lowered. */
  lemma LoweredSliceIsLowered(q: string, r: string)
    requires exists i :: SliceBetweenBlanks(ToLower(q), r, i)
    ensures IsLowered(r)
  {
    var low := ToLower(q);
    var i :| SliceBetweenBlanks(low, r, i);
    forall k | 0 <= k < |r| ensures Lower(r[k]) == r[k] {
      assert r[k] == low[i + k] == Lower(q[i + k]);
    }
  }

  /** `text.replace(/sth|chase|th/gi, "").trim()`. */
  function Cleaned(text: string): (r: string)
    ensures |r| <= |text| && IsTrimmed(r)
  {
    Trim(StripMarkers(text))
  }

  /** The query for a non-blank `q`; none for a blank one. */
  function BuildQuery(q: string, page: int): (r: Option<Query>)
    ensures r.None? <==> IsBlank(q)
    ensures r.Some? ==> r.value.last - r.value.first + 1 == PageSize && r.value.first == (page - 1) * PageSize
    ensures r.Some? ==> (r.value.rarity.Some? <==> Contains(Normalize(q), "th") || Contains(Normalize(q), "chase"))
    ensures r.Some? ==> (r.value.anyOf == [] <==> Cleaned(Normalize(q)) == [])
    ensures r.Some? ==> r.value.rarity == DetectRarity(Normalize(q)) && r.value.anyOf == TextClauses(Cleaned(Normalize(q)))
  {
    if Trim(q) == [] then None
    else
      var text := Normalize(q);
      var cleaned := Cleaned(text);
      Some(Query(PageStart(page), PageEnd(page), DetectRarity(text), TextClauses(cleaned)))
  }

  /** The text of a non-blank `q` reaches the query non-empty. */
  lemma NormalizedNotEmpty(q: string)
    requires !IsBlank(q)
    ensures Normalize(q) != []
  {
  }

  // ---------------------------------------------------------------------------
  // The route

  /** The selected columns of a `hotwheels` row. */
  datatype Hotwheel = Hotwheel(id: int, name: string, series: string, year: int, rarity: string, imageUrl: string)

  /** What the table answers: an error, or a page of rows with the exact match count (possibly null). */
  datatype QueryResult = QueryError | Fetched(rows: seq<Hotwheel>, count: Option<nat>)

  datatype SearchResponse = SearchResponse(items: seq<Hotwheel>, total: nat, page: int, totalPages: nat)

  /** `Math.ceil(count / 16)`: the number of pages `count` rows fill. */
  function TotalPages(count: nat): (n: nat)
    ensures n * PageSize >= count
    ensures count > 0 ==> (n - 1) * PageSize < count
    ensures count == 0 ==> n == 0
  {
    (count + PageSize - 1) / PageSize
  }

  /** `parseInt(page || "1")` for a numeric parameter; an absent or empty parameter reads as 1. */
  function PageOf(pageParam: Option<int>): (page: int)
    ensures pageParam.None? ==> page == 1
    ensures pageParam.Some? ==> page == pageParam.value
  {
    match pageParam
    case Some(p) => p
    case None => 1
  }

  /**
    GET: a blank `q` returns an empty page without querying; otherwise the
    built query runs (`run` stands for the table), an error returns the same
    empty shape, and a result returns its rows, its count and the page count.
   */
  function Get(qParam: Option<string>, pageParam: Option<int>, run: Query -> QueryResult): (resp: SearchResponse)
    ensures resp.page == PageOf(pageParam)
    ensures resp.totalPages * PageSize >= resp.total
    ensures resp.total > 0 ==> (resp.totalPages - 1) * PageSize < resp.total
    ensures resp.total == 0 ==> resp.totalPages == 0
    ensures IsBlank(qParam.GetOr("")) ==> resp == SearchResponse([], 0, PageOf(pageParam), 0)
    ensures var query := BuildQuery(qParam.GetOr(""), PageOf(pageParam));
      query.Some? && run(query.value).QueryError? ==> resp == SearchResponse([], 0, PageOf(pageParam), 0)
    ensures var query := BuildQuery(qParam.GetOr(""), PageOf(pageParam));
      query.Some? && run(query.value).Fetched? ==>
        resp.items == run(query.value).rows && resp.total == run(query.value).count.GetOr(0)
  {
    var q := qParam.GetOr("");
    var page := PageOf(pageParam);
    match BuildQuery(q, page)
    case None => SearchResponse([], 0, page, 0)
    case Some(query) =>
      match run(query)
      case QueryError => SearchResponse([], 0, page, 0)
      case Fetched(rows, count) =>
        var total := count.GetOr(0);
        SearchResponse(rows, total, page, TotalPages(total))
  }
}

=== FILE: text.dfy ===
/**
  The JavaScript string operations the route handlers rely on, with one
  `char` per character: `trim`, `toLowerCase`, `includes` and `replace` with a
  string pattern.
 */
module Text {
  import opened Rows

  /** The white space and line terminators that `trim()` removes and `\s` matches. */
  predicate IsSpace(c: char)
  {
    c == ' ' || c == '\t' || c == '\n' || c == '\r' || c == '\U{000B}' || c == '\U{000C}'
    || c == '\U{00A0}' || c == '\U{1680}' || ('\U{2000}' <= c <= '\U{200A}')
    || c == '\U{2028}' || c == '\U{2029}' || c == '\U{202F}' || c == '\U{205F}'
    || c == '\U{3000}' || c == '\U{FEFF}'
  }

  /** Every character of `s` is white space (the empty string included). */
  predicate IsBlank(s: string)
  {
    forall k :: 0 <= k < |s| ==> IsSpace(s[k])
  }

  /**
    Lower case of one character: Latin A-Z and the Cyrillic capitals used by
    Ukrainian and Russian text (U+0400-U+042F, U+0490); every other character
    is kept.
   */
  function Lower(c: char): (d: char)
    ensures IsSpace(d) <==> IsSpace(c)
    ensures !('A' <= c <= 'Z') && c as int < 0x400 ==> d == c
  {
    if 'A' <= c <= 'Z' then (c as int + 0x20) as char
    else if 0x410 <= c as int <= 0x42F then (c as int + 0x20) as char
    else if 0x400 <= c as int <= 0x40F then (c as int + 0x50) as char
    else if c as int == 0x490 then 0x491 as char
    else c
  }

  /** `s.toLowerCase()`, character by character. */
  function ToLower(s: string): (r: string)
    ensures |r| == |s|
    ensures forall k :: 0 <= k < |s| ==> r[k] == Lower(s[k])
    ensures IsBlank(r) <==> IsBlank(s)
  {
    seq(|s|, k requires 0 <= k < |s| => Lower(s[k]))
  }

  /** `s.trimStart()`: drops the leading white space and nothing else. */
  function TrimStart(s: string): (r: string)
    ensures |r| <= |s| && r == s[|s| - |r|..]
    ensures forall k :: 0 <= k < |s| - |r| ==> IsSpace(s[k])
    ensures r == [] || !IsSpace(r[0])
    decreases |s|
  {
    if s != [] && IsSpace(s[0]) then TrimStart(s[1..]) else s
  }

  /** `s.trimEnd()`: drops the trailing white space and nothing else. */
  function TrimEnd(s: string): (r: string)
    ensures |r| <= |s| && r == s[..|r|]
    ensures forall k :: |r| <= k < |s| ==> IsSpace(s[k])
    ensures r == [] || !IsSpace(r[|r| - 1])
    decreases |s|
  {
    if s != [] && IsSpace(s[|s| - 1]) then TrimEnd(s[..|s| - 1]) else s
  }

  /** Neither end of `s` is white space. */
  predicate IsTrimmed(s: string)
  {
    s == [] || (!IsSpace(s[0]) && !IsSpace(s[|s| - 1]))
  }

  /**
    `s.trim()`: the middle of `s` between its leading and its trailing white
    space; it starts and ends with non-space and is empty exactly for blank input.
   */
  function Trim(s: string): (r: string)
    ensures |r| <= |s|
    ensures exists i :: SliceBetweenBlanks(s, r, i)
    ensures IsTrimmed(r)
    ensures r == [] <==> IsBlank(s)
  {
    TrimBlank(s);
    TrimSlice(s);
    TrimEnd(TrimStart(s))
  }

  lemma TrimBlank(s: string)
    ensures var t := TrimEnd(TrimStart(s));
      && |t| <= |s|
      && IsTrimmed(t)
      && (t == [] <==> IsBlank(s))
  {
    var a := TrimStart(s);
    var t := TrimEnd(a);
    if t != [] {
      assert t[0] == a[0];
    } else {
      assert a == [];
    }
  }

  /** `r` is the slice of `s` from `i` whose prefix before it and suffix after it are white space. */
  predicate SliceBetweenBlanks(s: string, r: string, i: int)
  {
    0 <= i <= i + |r| <= |s| && r == s[i..i + |r|] && IsBlank(s[..i]) && IsBlank(s[i + |r|..])
  }

  /** Trimming keeps the characters between a blank prefix and a blank suffix of `s`. */
  lemma TrimSlice(s: string)
    ensures exists i :: SliceBetweenBlanks(s, TrimEnd(TrimStart(s)), i)
  {
    var a := TrimStart(s);
    var t := TrimEnd(a);
    var i := |s| - |a|;
    assert a == s[i..];
    assert t == a[..|t|];
    assert t == s[i..i + |t|];
    var prefix := s[..i];
    forall k | 0 <= k < |prefix| ensures IsSpace(prefix[k]) {
      assert prefix[k] == s[k];
    }
    var suffix := s[i + |t|..];
    assert suffix == a[|t|..];
    forall k | 0 <= k < |suffix| ensures IsSpace(suffix[k]) {
      assert suffix[k] == a[|t| + k];
    }
    assert SliceBetweenBlanks(s, t, i);
  }

  /** `pat` occurs in `s` at index `k`. */
  predicate OccursAt(s: string, pat: string, k: int)
  {
    0 <= k && k + |pat| <= |s| && s[k..k + |pat|] == pat
  }

  /** The first index at or after `from` where `pat` occurs in `s`. */
  function IndexFrom(s: string, pat: string, from: nat): (r: Option<nat>)
    ensures r.Some? ==> from <= r.value && OccursAt(s, pat, r.value)
    ensures r.Some? ==> forall k :: from <= k < r.value ==> !OccursAt(s, pat, k)
    ensures r.None? ==> forall k :: from <= k ==> !OccursAt(s, pat, k)
    decreases |s| - from
  {
    if from + |pat| > |s| then None
    else if s[from..from + |pat|] == pat then Some(from)
    else IndexFrom(s, pat, from + 1)
  }

  /** `s.indexOf(pat)`, with no index for -1. */
  function IndexOf(s: string, pat: string): Option<nat>
  {
    IndexFrom(s, pat, 0)
  }

  /** `s.includes(pat)`: `pat` occurs somewhere in `s`. */
  predicate Contains(s: string, pat: string)
    ensures Contains(s, pat) <==> exists k :: OccursAt(s, pat, k)
  {
    IndexOf(s, pat).Some?
  }

  /** An occurrence at any index makes `includes` hold. */
  lemma OccurrenceIsContained(s: string, pat: string, k: int)
    requires OccursAt(s, pat, k)
    ensures Contains(s, pat)
  {
  }

  /** A pattern whose first character never appears in `s` is not contained in it. */
  lemma FirstCharacterMissing(s: string, pat: string)
    requires pat != []
    requires forall k :: 0 <= k < |s| ==> s[k] != pat[0]
    ensures !Contains(s, pat)
  {
    forall k | 0 <= k && k + |pat| <= |s| ensures !OccursAt(s, pat, k) {
      assert s[k..k + |pat|][0] == s[k];
    }
  }

  /** A pattern that contains `inner` makes every string containing it contain `inner`. */
  lemma ContainsTransitive(s: string, pat: string, inner: string, j: nat)
    requires Contains(s, pat)
    requires OccursAt(pat, inner, j)
    ensures Contains(s, inner)
  {
    var i := IndexOf(s, pat).value;
    assert s[i..i + |pat|] == pat;
    assert s[i + j..i + j + |inner|] == pat[j..j + |inner|];
    OccurrenceIsContained(s, inner, i + j);
  }

  /** `s.replace(pat, "")`: removes the first occurrence of `pat`, if any. */
  function RemoveFirst(s: string, pat: string): (r: string)
    ensures !Contains(s, pat) ==> r == s
    ensures Contains(s, pat) ==> |r| == |s| - |pat|
    ensures Contains(s, pat) ==> exists i :: (OccursAt(s, pat, i)
      && (forall k :: 0 <= k < i ==> !OccursAt(s, pat, k)) && r == s[..i] + s[i + |pat|..])
  {
    match IndexOf(s, pat)
    case None => s
    case Some(i) => s[..i] + s[i + |pat|..]
  }

  /** Removing a pattern from the front of `pat + t` gives back `t`, whatever `t` holds. */
  lemma {:induction false} RemoveFirstOfPrefix(pat: string, t: string)
    ensures RemoveFirst(pat + t, pat) == t
  {
    var s := pat + t;
    assert s[0..|pat|] == pat;
    assert IndexOf(s, pat) == Some(0);
    assert s[|pat|..] == t;
  }
}

=== FILE: user_badges.dfy ===
/**
  The badge-slot route: lists the caller's badge grants (GET) and equips one
  of them in a profile slot 1..5 (POST) by two ordered updates of the
  caller's `user_badges` rows: clear the slot, then assign it.
 */
module UserBadges {
  import opened Rows
  import opened Schema
  import opened Auth
  import opened Checkin

  /** Profile slots are numbered 1 to `SlotCount`. */
  const SlotCount := 5

  // ---------------------------------------------------------------------------
  // Request validation

  /** The POST body's `badge_id` and `slot` (absent or numeric). */
  datatype EquipBody = EquipBody(badgeId: Option<int>, slot: Option<int>)

  /** The request passes `!badge_id || !slot || slot < 1 || slot > 5` (falsy means absent or 0). */
  function Accepts(body: EquipBody): (ok: bool)
    ensures ok <==> body.badgeId.GetOr(0) != 0 && body.slot.Some? && body.slot.value in {1, 2, 3, 4, 5}
  {
    var badgeFalsy := body.badgeId.None? || body.badgeId.value == 0;
    var slotFalsy := body.slot.None? || body.slot.value == 0;
    !(badgeFalsy || slotFalsy || body.slot.value < 1 || body.slot.value > SlotCount)
  }

  // ---------------------------------------------------------------------------
  // The two updates

  /** One row under `update({equipped_slot: null}).eq('user_id', user).eq('equipped_slot', slot)`. */
  function ClearedRow(g: UserBadge, user: UserId, slot: int): UserBadge
  {
    if g.userId == user && g.equippedSlot == Some(slot) then g.(equippedSlot := None) else g
  }

  /** One row under `update({equipped_slot: slot}).eq('user_id', user).eq('badge_id', badgeId)`. */
  function AssignedRow(g: UserBadge, user: UserId, badgeId: int, slot: int): UserBadge
  {
    if g.userId == user && g.badgeId == badgeId then g.(equippedSlot := Some(slot)) else g
  }

  /**
    The clearing update over the table: afterwards none of the user's rows
    holds `slot`; only the user's rows that held it change, and only in their
    slot column.
   */
  function ClearSlot(rows: seq<UserBadge>, user: UserId, slot: int): (after: seq<UserBadge>)
    ensures |after| == |rows|
    ensures forall i :: 0 <= i < |after| && after[i].userId == user ==> after[i].equippedSlot != Some(slot)
    ensures forall i :: 0 <= i < |rows| && (rows[i].userId != user || rows[i].equippedSlot != Some(slot))
              ==> after[i] == rows[i]
    ensures forall i :: 0 <= i < |rows| ==> after[i].(equippedSlot := rows[i].equippedSlot) == rows[i]
  {
    seq(|rows|, i requires 0 <= i < |rows| => ClearedRow(rows[i], user, slot))
  }

  /**
    The assigning update over the table: afterwards every row of the user for
    `badgeId` holds `slot`; no other row changes, and no other column.
   */
  function AssignSlot(rows: seq<UserBadge>, user: UserId, badgeId: int, slot: int): (after: seq<UserBadge>)
    ensures |after| == |rows|
    ensures forall i :: 0 <= i < |rows| && rows[i].userId == user && rows[i].badgeId == badgeId
              ==> after[i].equippedSlot == Some(slot)
    ensures forall i :: 0 <= i < |rows| && (rows[i].userId != user || rows[i].badgeId != badgeId)
              ==> after[i] == rows[i]
    ensures forall i :: 0 <= i < |rows| ==> after[i].(equippedSlot := rows[i].equippedSlot) == rows[i]
  {
    seq(|rows|, i requires 0 <= i < |rows| => AssignedRow(rows[i], user, badgeId, slot))
  }

  /**
    Both updates, in order. Afterwards the slot is held by the chosen badge's
    rows only; the chosen badge's rows hold the slot (leaving any slot they had);
    a previous holder is emptied; no other row and no other column changes.
   */
  function Equip(rows: seq<UserBadge>, user: UserId, badgeId: int, slot: int): (after: seq<UserBadge>)
    ensures |after| == |rows|
    ensures forall i :: 0 <= i < |after| && after[i].userId == user && after[i].equippedSlot == Some(slot)
              ==> after[i].badgeId == badgeId
    ensures forall i :: 0 <= i < |rows| && rows[i].userId == user && rows[i].badgeId == badgeId
              ==> after[i].equippedSlot == Some(slot)
    ensures forall i :: (0 <= i < |rows| && rows[i].userId == user && rows[i].badgeId != badgeId
              && rows[i].equippedSlot == Some(slot)) ==> after[i].equippedSlot == None
    ensures forall i :: (0 <= i < |rows| && (rows[i].userId != user
              || (rows[i].badgeId != badgeId && rows[i].equippedSlot != Some(slot)))) ==> after[i] == rows[i]
    ensures forall i :: 0 <= i < |rows| ==> after[i].(equippedSlot := rows[i].equippedSlot) == rows[i]
  {
    AssignSlot(ClearSlot(rows, user, slot), user, badgeId, slot)
  }

  /** For every user, all rows in one slot carry the same badge. */
  ghost predicate OneBadgePerSlot(rows: seq<UserBadge>)
  {
    forall i, j :: 0 <= i < |rows| && 0 <= j < |rows| && rows[i].userId == rows[j].userId
      && rows[i].equippedSlot.Some? && rows[i].equippedSlot == rows[j].equippedSlot
      ==> rows[i].badgeId == rows[j].badgeId
  }

  /** Every equipped slot is one of the profile slots. */
  ghost predicate SlotsInRange(rows: seq<UserBadge>)
  {
    forall i :: 0 <= i < |rows| && rows[i].equippedSlot.Some? ==> 1 <= rows[i].equippedSlot.value <= SlotCount
  }

  /** Equipping keeps one badge per slot. */
  lemma EquipKeepsOneBadgePerSlot(rows: seq<UserBadge>, user: UserId, badgeId: int, slot: int)
    requires OneBadgePerSlot(rows)
    ensures OneBadgePerSlot(Equip(rows, user, badgeId, slot))
  {
    var after := Equip(rows, user, badgeId, slot);
    forall i, j | 0 <= i < |after| && 0 <= j < |after| && after[i].userId == after[j].userId
      && after[i].equippedSlot.Some? && after[i].equippedSlot == after[j].equippedSlot
      ensures after[i].badgeId == after[j].badgeId
    {
      var u := after[i].userId;
      if u == user && after[i].equippedSlot != Some(slot) {
        // Neither row is the chosen badge's (those now hold `slot`), so both kept their slot.
        assert rows[i].badgeId != badgeId && rows[j].badgeId != badgeId;
        assert after[i] == rows[i] && after[j] == rows[j];
      }
    }
  }

  /** Equipping a badge the user was never granted still empties the slot. */
  lemma UngrantedBadgeEmptiesSlot(rows: seq<UserBadge>, user: UserId, badgeId: int, slot: int)
    requires forall i :: 0 <= i < |rows| && rows[i].userId == user ==> rows[i].badgeId != badgeId
    ensures var after := Equip(rows, user, badgeId, slot);
      forall i :: 0 <= i < |after| && after[i].userId == user ==> after[i].equippedSlot != Some(slot)
  {
  }

  /**
    When the clearing update is rejected, the assigning update alone can leave
    two of the user's badges in one slot: badge 1 holds slot 2 and badge 7 is
    then assigned slot 2 as well.
   */
  lemma FailedClearLeavesTwoHolders(user: UserId)
    ensures var rows := [UserBadge(user, 1, 0, Some(2), 0, 0), UserBadge(user, 7, 0, None, 0, 0)];
      && OneBadgePerSlot(rows)
      && !OneBadgePerSlot(AssignSlot(rows, user, 7, 2))
  {
    var rows := [UserBadge(user, 1, 0, Some(2), 0, 0), UserBadge(user, 7, 0, None, 0, 0)];
    var after := AssignSlot(rows, user, 7, 2);
    assert after[0] == rows[0];
    assert after[1].equippedSlot == Some(2);
    assert after[0].badgeId != after[1].badgeId;
  }

  /** Equipping a profile slot keeps every equipped slot within 1..5. */
  lemma EquipKeepsSlotsInRange(rows: seq<UserBadge>, user: UserId, badgeId: int, slot: int)
    requires SlotsInRange(rows)
    requires 1 <= slot <= SlotCount
    ensures SlotsInRange(Equip(rows, user, badgeId, slot))
    ensures SlotsInRange(ClearSlot(rows, user, slot))
  {
  }

  /** `after` is `rows` with at most the slot column changed. */
  ghost predicate SameGrants(rows: seq<UserBadge>, after: seq<UserBadge>)
  {
    |after| == |rows| && forall i :: 0 <= i < |rows| ==> after[i].(equippedSlot := rows[i].equippedSlot) == rows[i]
  }

  /** Two slot-only changes in a row are a slot-only change. */
  lemma SameGrantsTransitive(a: seq<UserBadge>, b: seq<UserBadge>, c: seq<UserBadge>)
    requires SameGrants(a, b) && SameGrants(b, c)
    ensures SameGrants(a, c)
  {
    forall i | 0 <= i < |a| ensures c[i].(equippedSlot := a[i].equippedSlot) == a[i] {
      assert c[i].(equippedSlot := b[i].equippedSlot) == b[i];
    }
  }

  /** Changing only slots keeps who holds which grant, so the grant invariants of the check-in route hold on. */
  lemma SlotChangesKeepGrantInvariants(ledger: seq<CheckinRecord>, rows: seq<UserBadge>, after: seq<UserBadge>,
                                       catalog: seq<Badge>)
    requires SameGrants(rows, after)
    ensures GrantsEarned(ledger, rows) ==> GrantsEarned(ledger, after)
    ensures OneGrantPerLevel(rows) ==> OneGrantPerLevel(after)
    ensures GrantsMatchCatalogue(rows, catalog) ==> GrantsMatchCatalogue(after, catalog)
  {
    forall i | 0 <= i < |rows|
      ensures after[i].userId == rows[i].userId && after[i].badgeId == rows[i].badgeId
      ensures after[i].levelEarned == rows[i].levelEarned
    {
      assert after[i].(equippedSlot := rows[i].equippedSlot) == rows[i];
    }
    if GrantsMatchCatalogue(rows, catalog) {
      forall i | 0 <= i < |after| ensures ListedAtLevel(catalog, after[i]) {
        assert ListedAtLevel(catalog, rows[i]);
      }
    }
  }

  // ---------------------------------------------------------------------------
  // The route

  /** The POST responses; `Crashed` is the framework's 500 for a body that does not parse or is null. */
  datatype EquipResponse = EquipUnauthorized | InvalidSlotOrBadge | EquipFailed(message: string) | Equipped | Crashed

  /**
    POST: equips a badge. `body` is none when it does not parse or is null;
    `clearFails` stands for a rejected clearing update (ignored by the route),
    `assignError` for a rejected assigning update.
   */
  method PostEquip(db: Database, header: Option<string>, sessions: map<string, UserId>,
                   body: Option<EquipBody>, clearFails: bool, assignError: Option<string>)
    returns (resp: EquipResponse)
    modifies db
    ensures db.checkins == old(db.checkins) && db.selectedBadges == old(db.selectedBadges)
    ensures db.badges == old(db.badges)
    ensures resp == EquipUnauthorized <==> Authenticate(header, sessions).None?
    ensures resp == Crashed <==> Authenticate(header, sessions).Some? && body.None?
    ensures resp == InvalidSlotOrBadge
            <==> Authenticate(header, sessions).Some? && body.Some? && !Accepts(body.value)
    ensures resp in {EquipUnauthorized, Crashed, InvalidSlotOrBadge} ==> db.userBadges == old(db.userBadges)
    ensures Authenticate(header, sessions).Some? && body.Some? && Accepts(body.value) ==>
      var user, badgeId, slot := Authenticate(header, sessions).value, body.value.badgeId.value, body.value.slot.value;
      var cleared := if clearFails then old(db.userBadges) else ClearSlot(old(db.userBadges), user, slot);
      && resp == (if assignError.Some? then EquipFailed(assignError.value) else Equipped)
      && db.userBadges == (if assignError.Some? then cleared else AssignSlot(cleared, user, badgeId, slot))
      && (!clearFails && assignError.None? ==> db.userBadges == Equip(old(db.userBadges), user, badgeId, slot))
    ensures resp == Equipped && !clearFails && OneBadgePerSlot(old(db.userBadges)) ==> OneBadgePerSlot(db.userBadges)
    ensures !clearFails && SlotsInRange(old(db.userBadges)) ==> SlotsInRange(db.userBadges)
    ensures GrantsEarned(old(db.checkins), old(db.userBadges)) ==> GrantsEarned(db.checkins, db.userBadges)
    ensures OneGrantPerLevel(old(db.userBadges)) ==> OneGrantPerLevel(db.userBadges)
    ensures GrantsMatchCatalogue(old(db.userBadges), old(db.badges)) ==> GrantsMatchCatalogue(db.userBadges, db.badges)
  {
    var auth := Authenticate(header, sessions);
    if auth.None? {
      return EquipUnauthorized;
    }
    var user := auth.value;
    if body.None? {
      return Crashed;
    }
    var request := body.value;
    if !Accepts(request) {
      return InvalidSlotOrBadge;
    }
    var badgeId, slot := request.badgeId.value, request.slot.value;
    ghost var before := db.userBadges;

    if !clearFails {
      db.userBadges := ClearSlot(db.userBadges, user, slot);
    }
    ghost var cleared := db.userBadges;
    assert SameGrants(before, cleared);
    if assignError.Some? {
      SlotChangesKeepGrantInvariants(db.checkins, before, cleared, db.badges);
      return EquipFailed(assignError.value);
    }
    db.userBadges := AssignSlot(db.userBadges, user, badgeId, slot);
    resp := Equipped;
    SameGrantsTransitive(before, cleared, db.userBadges);
    SlotChangesKeepGrantInvariants(db.checkins, before, db.userBadges, db.badges);

    if !clearFails {
      if OneBadgePerSlot(before) {
        EquipKeepsOneBadgePerSlot(before, user, badgeId, slot);
      }
      if SlotsInRange(before) {
        EquipKeepsSlotsInRange(before, user, badgeId, slot);
      }
    }
  }

  /** The GET responses: 401, 500 with the store's message, or the caller's grants. */
  datatype ListResponse = ListUnauthorized | ListFailed(message: string) | BadgeList(badges: seq<UserBadge>)

  /** GET: the caller's grants, newest first by `created_at`; `queryError` stands for a failed read. */
  function GetBadges(db: Database, header: Option<string>, sessions: map<string, UserId>, queryError: Option<string>)
    : (r: ListResponse)
    reads db
    ensures r.ListUnauthorized? <==> Authenticate(header, sessions).None?
    ensures r.ListFailed? <==> Authenticate(header, sessions).Some? && queryError.Some?
    ensures r.BadgeList? ==>
      var user := Authenticate(header, sessions).value;
      && (forall k :: 0 <= k < |r.badges| ==> r.badges[k].userId == user)
      && multiset(r.badges) == multiset(Filter(db.userBadges, GrantOf(user)))
      && SortedBy(r.badges, CreatedDescending)
  {
    match Authenticate(header, sessions)
    case None => ListUnauthorized
    case Some(user) =>
      if queryError.Some? then ListFailed(queryError.value)
      else
        var mine := Filter(db.userBadges, GrantOf(user));
        FilterMembers(db.userBadges, GrantOf(user));
        SortedGrantsAreOwn(mine, user);
        var r := SortBy(mine, CreatedDescending);
        assert forall k :: 0 <= k < |r| ==> r[k].userId == user;
        BadgeList(r)
  }

  /** Ordering the caller's grants brings in no other user's row. */
  lemma SortedGrantsAreOwn(mine: seq<UserBadge>, user: UserId)
    requires forall k :: 0 <= k < |mine| ==> mine[k].userId == user
    ensures forall k :: 0 <= k < |SortBy(mine, CreatedDescending)| ==> SortBy(mine, CreatedDescending)[k].userId == user
  {
    var r := SortBy(mine, CreatedDescending);
    SortByMembers(mine, CreatedDescending);
    forall k | 0 <= k < |r| ensures r[k].userId == user {
      assert r[k] in mine;
    }
  }
}
